=== FILE: README.md ===
# Job board core, modelled in Dafny

This project models the behaviour of a Django job board. Recruiters post jobs, job seekers search and apply, and staff manage both through the admin.

The database is replaced by in-memory rows held in sequences. The records that the source updates in place are classes whose methods change those rows:

- `ApplicationTable` holds the applications.
- `JobTable` holds the jobs.
- `Accounts` holds the users and their profiles.
- `CompanyTable` holds the companies.

Each state-changing method is tied to a pure function of the old rows, and the properties are proved about those functions.

The modules follow the source files:

| module | models |
|---|---|
| `JobModel` | jobs/models.py: the job record, its choice tables and defaults, the company-name fallback, `__str__`, the display lookups with their title-case fallback, the currency symbol and the salary text with thousands separators |
| `JobForms` | jobs/forms.py: the required flags of the posting form, its deadline and salary checks, and the search form's choice lists and bounds |
| `JobFilters` | jobs/filters.py: the search filter set, a conjunction of case-insensitive substring, `>=`, any-of-skills and exact-match tests |
| `JobViews` | jobs/views.py: the paginated list of active jobs with its counters, and the detail page with the "already applied" flag and similar jobs |
| `ApplicationModel` | applications/models.py: status codes, default status, one application per (job, applicant), newest-first ordering, `__str__` |
| `ApplicationViews` | applications/views.py: apply, list one's own applications, withdraw |
| `ApplicationAdmin` | applications/admin.py: the company and status-badge columns and the three bulk status actions |
| `JobAdmin` | jobs/admin.py: the company, status and application-count columns and the three bulk activation actions |
| `Profiles` | profiles/models.py: skills ordered by unique name, the profile record, `is_complete` |
| `Users` | users/models.py: the role tag, its default and validation, `__str__` |
| `UserViews` | users/views.py: where an incomplete user is routed, get-or-create of the profile, and the completion flag raised on save |
| `Middleware` | users/middleware.py: the profile-completion redirect decision over the exempt paths |
| `Signup` | users/forms.py: signup validation and the company that a recruiter's signup finds or creates |

Four helper modules carry shared definitions:

- `Wrappers`: Option, Result and Python truthiness of an optional number.
- `Text`: ASCII case mapping, substring search, `str.strip()`, `str.title()`, decimal numerals and `{:,}` grouping.
- `Queries`: filter, stable ordering by a comparator, slicing and pagination over rows.
- `Choices`: the `(code, label)` tables and Django's built-in `get_FOO_display` lookup.

Dates and timestamps are integers, and "today" and "now" are parameters.

How the model follows the code:

- **Apply checks run in the code's order.** The apply page's own `dispatch` runs before the login and role mixins. So the order is: job lookup (404), then the duplicate query, then the login and role checks.
  - A job seeker who already applied is sent back to the job page.
  - A recruiter who has no application is sent home.
  - For an anonymous visitor, the duplicate query receives the anonymous user before any login check runs. Django rejects that query with an error. The model gives this case its own outcome, `AnonymousLookup`, which leaves the rows unchanged.
- **An anonymous visitor is sent home, not to the login page.** The seeker mixin overrides `handle_no_permission`, and that override also serves the login mixin. This applies to the list and withdraw pages.
- **The company search tests only the free-text `company_name` column**, not the linked company's name.
- **Bulk status updates leave `last_updated` as it was.** They use `update`, which bypasses `save`.

## Model

| member | source | states |
|---|---|---|
| JobModel.NewJob | jobs/models.py:35-64 | a new job has experience level "mid", currency "USD", no visa sponsorship, is active, has no salary bounds, deadline, skills or benefits, and keeps the given fields |
| JobModel.DefaultsAreChoices | jobs/models.py:19-33 | the default experience level and currency are codes of their own choice tables |
| JobModel.CompanyName | jobs/models.py:66-68 | the linked company's name when a company is set, otherwise the free-text company name |
| JobModel.JobStr | jobs/models.py:73-74 | the string form is the title, then " at ", then the company name |
| JobModel.InPostedOrder | jobs/models.py:76-77 | the default ordering is a permutation of the rows with newer `created_at` first |
| JobModel.NewestPostedFirstIsTotalPreorder | jobs/models.py:76-77 | newest-first comparison is a total preorder, so the ordering is well defined |
| JobModel.ActiveJobs | jobs/views.py:17-18 | the active-job queryset holds exactly the active rows, each exactly as often as in the table |
| JobModel.ActiveJob | jobs/views.py:35-36 | the detail lookup finds a job iff an active job with that id exists, and what it finds is active with that id |
| JobModel.ChoiceLabel | jobs/models.py:79-89 | a known code shows a label paired with it in the table; an unknown code shows the code title-cased |
| JobModel.ChoiceLabelOfKnownCode | jobs/models.py:79-89 | with unique codes, a known code shows exactly its own label |
| JobModel.ChoiceTablesHaveUniqueCodes | jobs/models.py:8-33 | the four choice tables have no repeated code |
| JobModel.JobTypeDisplay | jobs/models.py:79-81 | the job-type label, or the code title-cased when unknown |
| JobModel.LocationTypeDisplay | jobs/models.py:83-85 | the location-type label, or the code title-cased when unknown |
| JobModel.ExperienceLevelDisplay | jobs/models.py:87-89 | the experience-level label, or the code title-cased when unknown |
| JobModel.CurrencySymbol | jobs/models.py:106-116 | a known currency maps to its fixed symbol; an unknown code is returned unchanged |
| JobModel.CurrencyTablesAgree | jobs/models.py:26-33 | the symbol table covers exactly the currency choices, and each choice label ends with its symbol in parentheses |
| JobModel.SalaryDisplay | jobs/models.py:91-104 | definition of `get_salary_display`: symbol, grouped minimum, " - ", symbol, grouped maximum when both bounds are truthy, else "Salary not specified"; its meaning is stated by the next two rows |
| JobModel.SalaryNotSpecifiedIff | jobs/models.py:91-104 | the salary text is "Salary not specified" iff a bound is absent or zero |
| JobModel.SalaryDisplayRoundTrip | jobs/models.py:91-104 | with both bounds truthy, the salary text reads back as exactly the two stored bounds under the currency's symbol |
| Text.GroupedRoundTrip | jobs/models.py:103 | deleting the commas from a `{:,}` numeral gives decimal digits whose value is the number |
| Text.GroupedLayout | jobs/models.py:103 | a `{:,}` numeral is digits and commas, with a comma exactly every fourth character from the right, never first, and it starts with 0 only for zero |
| Text.GroupedUnique | jobs/models.py:103 | any string with that layout, a length not a multiple of four and no leading zero except "0" is the `{:,}` numeral of the number its digits spell, so the two rows above leave no other choice |
| Text.Grouped | jobs/models.py:103 | definition of `{:,}` on a natural number: the numeral of the thousands, a comma, then three zero-padded digits; determined by the three rows above |
| Text.TitleCase | jobs/models.py:81 | definition of `str.title()` on ASCII text, the length is kept; stated by the next row |
| Text.TitleCaseAt | jobs/models.py:81 | `str.title()` upper-cases a letter that follows a non-letter and lower-cases a letter that follows a letter |
| Text.Strip | users/forms.py:14-18 | `str.strip()` as a form's text field applies it: the result is no longer than the input and has no whitespace at either end, and it is empty exactly when the input is all whitespace |
| Text.StripPadded | users/forms.py:14-18 | stripping undoes any whitespace padding around a text that has none at its ends |
| Text.IContains | jobs/filters.py:7-21 | `icontains` holds iff the lower-cased query occurs in the lower-cased field |
| JobForms.JobForm.ForceListedRequired | jobs/forms.py:100-102 | the loop marks each listed name that is a field as required and leaves all other flags as they were |
| JobForms.ForceRequired | jobs/forms.py:100-102 | definition of the required flags after the `__init__` loop: a field is required when it is listed or was already required; stated by the next two rows |
| JobForms.JobFormRequiredFlags | jobs/forms.py:11-16 | after construction the seven listed fields are required, skills and deadline stay optional, and the field set is the form's |
| JobForms.ForceRequiredOnlyAdds | jobs/forms.py:100-102 | forcing keeps the field set, never makes a required field optional, makes every listed field required, and is idempotent |
| JobForms.CleanApplicationDeadline | jobs/forms.py:104-108 | a deadline strictly before today is rejected; an absent deadline, today or later passes unchanged |
| JobForms.CleanSalaryRange | jobs/forms.py:110-116 | rejected iff both salaries are truthy and min >= max; an absent or zero salary skips the check; accepted data is unchanged |
| JobForms.AcceptedRangeIsIncreasing | jobs/forms.py:112-115 | an accepted posting with both salaries truthy has min < max |
| JobForms.SearchAndCurrencyChoices | jobs/forms.py:28-30 | the currency field starts on one of its choices; the visa field offers exactly "", "yes" and "no" |
| JobForms.WithAny | jobs/forms.py:170-172 | a bound choice list is ("", "Any") followed by the model table in order |
| JobForms.JobFilterForm.constructor | jobs/forms.py:167-172 | the three choice fields are rebound to "Any" plus the model's job-type, location-type and experience tables |
| JobForms.CleanSearchBound | jobs/forms.py:147-154 | an empty bound passes as absent, a negative one is rejected, any other passes unchanged |
| JobFilters.FilterJobs | jobs/filters.py:6-35 | an invalid query gives no jobs; otherwise exactly the matching rows, each as often as in the input |
| JobFilters.Matches | jobs/filters.py:6-35 | definition of one job passing the filter set: the conjunction of the three `icontains` tests, the salary `gte` floor, the any-of skills test, and the exact job type, location type, experience level and visa tests, each skipped when its value is empty |
| JobFilters.NoFilterKeepsAll | jobs/filters.py:6-35 | the empty query keeps every job in order |
| JobFilters.TitleSearchIgnoresCase | jobs/filters.py:7-11 | lower-casing the query or the title never changes whether a job matches |
| JobFilters.SalaryFloorSemantics | jobs/filters.py:22-26 | searching by a salary floor alone returns exactly the jobs of the table whose minimum salary is present and at least the floor, each as often as in the table; a job without a minimum is dropped |
| JobFilters.SkillSelectionWidens | jobs/filters.py:27-31 | selected skills keep exactly the jobs requiring one of them, and selecting more skills never drops a job |
| JobFilters.NarrowingOnlyRemoves | jobs/filters.py:6-35 | filling in a further filter field only removes jobs (filters combine by AND), whether or not the narrower search is valid |
| JobFilters.FilterKeepsDistinct | jobs/filters.py:27-31 | a table without repeated rows filters to a list without repeated rows |
| JobViews.ListedJobs | jobs/views.py:10-18 | the listed jobs are exactly the active jobs matching a valid query, each as often as in the table, newest first, never more than the active jobs |
| JobViews.AppliedJobIds | jobs/views.py:23-27 | the applied-job ids are exactly the jobs the user has an application for |
| JobViews.JobList | jobs/views.py:10-28 | a page exists iff its number is in range; it is that slice of at most 12 listed jobs; total_jobs counts all active jobs; applied_jobs is present exactly for signed-in users |
| JobViews.FirstPageIsNewestActive | jobs/views.py:15-18 | the first page of the unfiltered list always exists, is the first twelve listed jobs (all of them when there are fewer), and shows only active jobs |
| JobViews.SimilarJobs | jobs/views.py:48-56 | at most 3 jobs, each active, sharing a skill and not the current job; newest first; none newer left out; all of them when fewer than 3; no repeats |
| JobViews.NoSkillsNoRecommendations | jobs/views.py:49-52 | a profile with no skills gets no similar jobs |
| JobViews.JobDetail | jobs/views.py:30-60 | 404 iff no active job has the id; user_has_applied iff a signed-in user has an application for the job; similar jobs exactly for job seekers; a seeker without a profile fails |
| JobViews.AppliedFlagAgreesWithList | jobs/views.py:23-45 | the detail page's applied flag agrees with the list page's applied_jobs |
| JobViews.RecommendationsExcludeCurrent | jobs/views.py:50-55 | no similar job is the job on display, and all are active |
| ApplicationModel.StatusTable | applications/models.py:6-20 | exactly eight distinct status codes, the default "applied" among them |
| ApplicationModel.NewApplication | applications/models.py:17-25 | a new application has status "applied", empty notes, both timestamps now, and the given job, applicant and possibly empty cover letter |
| ApplicationModel.UniquePairs | applications/models.py:27-28 | definition of `unique_together = ('job', 'applicant')`: no two rows share a job and an applicant |
| ApplicationModel.InDefaultOrder | applications/models.py:29 | the default ordering is a permutation with newer applied_date first |
| ApplicationModel.ApplicationStr | applications/models.py:31-32 | the string form is the username, " - ", then the job title |
| ApplicationViews.ApplyTo | applications/views.py:11-44 | 404 iff no active job; otherwise an anonymous visitor fails the duplicate query, a prior application is refused, a non-seeker is denied; only a seeker's first application creates exactly one row with status "applied"; both uniqueness constraints are kept |
| ApplicationViews.ApplyingTwiceIsRefused | applications/views.py:27-30 | a second application to the same job by the same user is refused |
| ApplicationViews.ApplicationTable.Apply | applications/views.py:24-44 | the table's rows and outcome are those of ApplyTo, the id counter advances exactly on creation, and the table stays valid |
| ApplicationViews.OwnApplications | applications/views.py:60-63 | exactly the user's applications, each as often as in the table, newest first |
| ApplicationViews.MyApplications | applications/views.py:11-17 | non-seekers are denied; a seeker's page exists iff its number is in range and holds at most 10 of their own applications |
| ApplicationViews.OwnRow | applications/views.py:70-72 | finds a row iff one has that id and belongs to the user |
| ApplicationViews.WithdrawFrom | applications/views.py:65-76 | non-seekers are denied; another user's or a missing id is a 404 with rows unchanged; otherwise exactly that application is removed |
| ApplicationViews.WithdrawnCanReapply | applications/views.py:65-76 | after a withdrawal the user has no application to that job left |
| ApplicationViews.RemoveAtKeepsUnique | applications/models.py:27-28 | deleting a row keeps one application per (job, applicant) and unique ids |
| ApplicationViews.ApplicationTable.Withdraw | applications/views.py:65-76 | the table's rows and outcome are those of WithdrawFrom, and the table stays valid |
| ApplicationAdmin.CompanyColumn | applications/admin.py:69-71 | the column is the application's job's company name under the model's fallback |
| ApplicationAdmin.BadgeColour | applications/admin.py:75-87 | a status in the colour table shows its colour; any other value shows "#6c757d" |
| ApplicationAdmin.BadgeColoursCoverStatuses | applications/admin.py:77-86 | the colour table has exactly the eight status codes |
| ApplicationAdmin.BadgeColourDistinguishesStatuses | applications/admin.py:77-87 | the badge is gray iff the status is withdrawn or unknown; distinct statuses get distinct colours |
| ApplicationAdmin.StatusBadge | applications/admin.py:75-92 | the badge pairs the status colour with the status label, or the raw code when unknown |
| ApplicationAdmin.Restatus | applications/admin.py:96-108 | each selected row gets the new status and every other row is unchanged |
| ApplicationAdmin.RestatusEffect | applications/admin.py:96-108 | every selected row has the new status, no field other than status changes, and both uniqueness constraints hold |
| ApplicationAdmin.RestatusLastWins | applications/admin.py:96-108 | repeating an action changes nothing; of two actions on one selection only the later shows |
| ApplicationAdmin.EmptySelectionChangesNothing | applications/admin.py:96-98 | a selection naming no row changes nothing and reports zero |
| ApplicationAdmin.UpdateStatus | applications/admin.py:96-108 | the rows become Restatus of the old rows, the reported count is the number of rows whose id is selected, and the table stays valid |
| ApplicationAdmin.MarkUnderReview | applications/admin.py:96-98 | sets "review" on the selection and reports the count |
| ApplicationAdmin.MarkInterviewed | applications/admin.py:101-103 | sets "interview_completed" on the selection and reports the count |
| ApplicationAdmin.MarkRejected | applications/admin.py:106-108 | sets "rejected" on the selection and reports the count |
| JobAdmin.CompanyColumn | jobs/admin.py:66-74 | the linked company's name, else the free-text name, else "No Company" when that is empty |
| JobAdmin.CompanyColumnAgreesWithModel | jobs/admin.py:66-74 | the column equals the model's company name except that an unlinked, unnamed job shows "No Company" |
| JobAdmin.ActiveStatusColumn | jobs/admin.py:78-86 | "✓ Active" iff active, "✗ Inactive" iff inactive |
| JobAdmin.ApplicationCount | jobs/admin.py:92 | the count is zero iff no application points at the job |
| JobAdmin.ApplicationCountColumn | jobs/admin.py:90-99 | definition of the column text: the count's numeral then " applications", or "0 applications"; stated by the next row |
| JobAdmin.ApplicationCountColumnReadsBack | jobs/admin.py:90-99 | the column reads back as the count followed by " applications", and says "0 applications" iff the count is zero |
| JobAdmin.SetActive | jobs/admin.py:102-127 | each selected job gets the new active flag and every other job is unchanged |
| JobAdmin.SetActiveEffectOnListing | jobs/admin.py:102-127 | a job id is on the active list afterwards iff a row with it exists that was selected while the action activates, or was not selected and already active |
| JobAdmin.SetActiveKeepsOtherColumns | jobs/admin.py:102-127 | an action changes no column of any row other than `is_active` |
| JobAdmin.SetActiveLastWins | jobs/admin.py:102-127 | repeating an action changes nothing; of two actions on one selection only the later shows |
| JobAdmin.DeactivatedLeaveTheListing | jobs/admin.py:111-127 | after deactivation no selected job is active, and every unselected active job still is |
| JobAdmin.JobTable.Update | jobs/admin.py:102-127 | the jobs become SetActive of the old jobs, the count is the number of rows whose id is selected, and ids stay unique |
| JobAdmin.ActivateJobs | jobs/admin.py:102-108 | activates the selection and reports the count |
| JobAdmin.DeactivateJobs | jobs/admin.py:111-118 | deactivates the selection and reports the count |
| JobAdmin.MarkAsFilled | jobs/admin.py:120-127 | the same table change as DeactivateJobs, with its own message |
| Profiles.ByNameIsTotalPreorder | profiles/models.py:12-13 | ordering skills by name is a total preorder |
| Profiles.SkillsByName | profiles/models.py:12-13 | the skill ordering is a permutation of the catalogue, sorted by name |
| Profiles.SkillsByNameStrictlyIncreasing | profiles/models.py:6-13 | with unique names, the ordered skills have pairwise distinct names in strictly increasing order |
| Profiles.NewProfile | profiles/models.py:15-40 | a new profile is public, open to work, with empty headline, bio, location and skills |
| Profiles.NewProfileVisibilityIsChoice | profiles/models.py:34-35 | the visibility codes are exactly "public" and "private", and the default is one of them |
| Profiles.IsComplete | profiles/models.py:48-52 | definition of `is_complete`: headline, bio and location all non-empty and at least one skill; stated by the next two rows |
| Profiles.NewProfileIncomplete | profiles/models.py:48-52 | a new profile is never complete |
| Profiles.CompletenessIgnoresOtherFields | profiles/models.py:48-52 | completeness depends only on headline, bio, location and skills |
| Profiles.ProfileOf | profiles/models.py:16 | the user's profile is found iff a profile row belongs to the user |
| Profiles.ProfileStr | profiles/models.py:45-46 | the string form is the username followed by "'s Profile" |
| Users.NewUser | users/models.py:10-12 | a new user is a job seeker with email unverified and profile incomplete |
| Users.IsJobSeeker | applications/views.py:12-13 | definition of the seeker mixin's test: signed in and of role "job_seeker" |
| Users.DefaultUserTypeIsChoice | users/models.py:6-10 | the default role is a code of the role table |
| Users.UserTypeCodes | users/models.py:6-9 | the role table knows exactly "job_seeker" and "recruiter" |
| Users.CleanUser | users/models.py:14-17 | rejected iff the role is neither of the two; otherwise the user is unchanged |
| Users.UserTypeDisplay | users/models.py:19-20 | the role label, or the raw value when unknown |
| Users.UserStr | users/models.py:19-20 | the string form is the username, " (", the role label, ")" |
| UserViews.CompletionRoute | users/views.py:10-19 | anonymous users go to login, completed users go home, other job seekers go to the seeker page, everyone else to the recruiter page |
| UserViews.GetOrCreateProfile | users/views.py:27-29 | returns the user's existing profile with rows unchanged, or appends exactly one new profile; one profile per user is kept |
| UserViews.GetOrCreateIsStable | users/views.py:27-29 | a second get-or-create finds the row the first made and changes nothing |
| UserViews.SaveProfile | users/views.py:31-32 | the user's profile row is replaced by the saved one, and every other row is unchanged |
| UserViews.SaveProfileEffect | users/views.py:31-32 | saving keeps one profile per user, and the saved profile is the user's profile |
| UserViews.RaiseCompleted | users/views.py:31-36 | the saving user's flag is raised when the profile is complete; all other rows are unchanged |
| UserViews.CompletionFlagOnlyRises | users/views.py:31-40 | a flag is afterwards the old flag or the saved profile's completeness, and never goes back to false |
| UserViews.Accounts.GetObject | users/views.py:27-29 | the profile and rows are those of GetOrCreateProfile, and the users are unchanged |
| UserViews.CompletionValid | profiles/forms.py:5-14 | definition of the completion form's validation: at least one skill, every chosen skill existing; headline, location and current position within 255, 100 and 200 characters once stripped (profiles/models.py:17,20,28); the other fields allow blanks |
| UserViews.ApplyCompletion | profiles/forms.py:12-14 | the bound profile takes the form's eight fields (headline, bio, location, skills, current position, years of experience, education, open to work), the five text fields with surrounding whitespace stripped, and every other column keeps its stored value |
| UserViews.CompletionDecidedByForm | users/views.py:31-36 | whether a completion marks the profile complete depends only on the submitted form; with a valid form, exactly when headline, bio and location each hold a non-whitespace character |
| UserViews.Accounts.FormValid | users/views.py:31-40 | with a valid form and an existing profile: the stored profile with the form's fields replaced is saved, and the user's flag is raised exactly when headline, bio and location each hold a non-whitespace character |
| UserViews.Accounts.SubmitCompletion | users/views.py:21-48 | get-or-create runs first; an invalid form is rejected with only that done; a valid one saves the form's fields, text stripped, over the fetched profile, which is then the user's profile, and raises the flag exactly when headline, bio and location each hold a non-whitespace character (shared by the seeker and recruiter pages) |
| Middleware.ExemptUrls | users/middleware.py:13-22 | the exempt list is the reversed URLs plus "/admin/" and "/accounts/" |
| Middleware.StartsWithAny | users/middleware.py:27 | true iff the path starts with some exempt entry |
| Middleware.MembershipSubsumedByPrefix | users/middleware.py:26-27 | a path in the list starts with a list entry, so the exact test adds nothing |
| Middleware.ShouldRedirect | users/middleware.py:24-27 | definition of the redirect condition: signed in, profile not completed, and the path neither in nor under any exempt entry |
| Middleware.RedirectDecision | users/middleware.py:24-30 | redirects iff a member with an incomplete profile is on a path with no exempt prefix; anonymous users, completed users and /admin/ or /accounts/ paths pass |
| Middleware.Gate | users/middleware.py:24-33 | redirects iff the decision holds, and otherwise returns the downstream response unchanged |
| Signup.SignupErrors | users/forms.py:14-31 | each error exactly when it applies, on stripped text: email required; the role must be one of the two; a company name over 200 characters is rejected; a recruiter must give a company name that is non-empty and within the limit |
| Signup.SeekerNeedsNoCompany | users/forms.py:30-31 | a job seeker is never rejected for lacking a company name, and a company name within the limit does not change a seeker's errors |
| Signup.AcceptedSignup | users/forms.py:22-31 | an accepted signup has a non-blank email, a valid role and a company name within 200 characters, and a recruiter's company name is non-blank |
| Signup.CompaniesAfterSignup | users/forms.py:40-45 | a recruiter's new (stripped) company name adds exactly one company created by the user; otherwise nothing changes; company names stay unique |
| Signup.PaddedNameFindsCompany | users/forms.py:40-45 | a recruiter who types an existing company's name with whitespace around it finds that company and adds none |
| Signup.SeekerCreatesNoCompany | users/forms.py:41 | a job seeker's signup never creates a company |
| Signup.ExistingCompanyUnchanged | users/forms.py:41-45 | an existing company named by the stripped company name is left unchanged, creator included |
| Signup.SavedUser | users/forms.py:35-38 | the saved user has the chosen role and is otherwise unchanged |
| Signup.CompanyTable.Save | users/forms.py:35-47 | the companies become CompaniesAfterSignup of the old ones, found by a scan for the stripped name among unique names, and names stay unique |

## Left out

- HTML output is not modelled: `format_html` links and spans in the admin columns, templates, widgets and form labels. The columns are modelled as their text.
- Flash messages are not modelled, except the count messages of the bulk admin actions.
- The database is rows in sequences. Left out are `select_related`, `prefetch_related`, SQL NULL, transactions, and the race between two simultaneous applies, which the unique constraint settles.
- The route table and URL reversal are not modelled. The six URLs the middleware obtains by reversing route names are a parameter. The middleware is commented out of the middleware setting. Two of the names it reverses, `complete_job_seeker_profile` and `complete_recruiter_profile`, exist only under the `users` namespace, so reversing them as written would fail.
- The account signup library's own work is left out: creating the account, passwords, and email format and uniqueness. The model starts from the account it returns.
- Case-insensitive search and `str.title()` use ASCII case mapping only, and stripping removes ASCII whitespace only. Unicode case folding and Unicode whitespace are not modelled.
- `timezone.now()` and the auto timestamps are parameters (today, now). Dates are integers.
- File uploads (resume, pictures, logos) are not modelled. They are plain strings in the records.
- JobFilters.ValidParams: a salary floor that is not a number, which fails validation and gives no jobs, is not representable, because the query holds the already-parsed number.
- JobFilters: the keyword field `q` of the search form has no filter anywhere in the source, so it filters nothing here either.
- JobViews.JobList and ApplicationViews.MyApplications: only integer page numbers are modelled. The string "last" and non-numeric pages are left out.
- ApplicationViews.ApplyTo: a GET request only renders the form. The form's cover letter is optional and always valid, so only the valid POST is modelled.
  - The `ValidationError` handler in `form_valid` is not modelled. The duplicate check in `dispatch` already keeps the unique constraint, so sequentially it is not reached.
- ApplicationViews.WithdrawFrom: a GET request only renders the confirmation page. The success message of the `delete` override is left out; the deletion is the same on either path.
- `PositiveIntegerField`'s upper bound (2147483647) is not modelled. Salaries and counts are unbounded naturals.
- Admin list filters, search fields and fieldsets are not modelled; they are configuration only. So are the applicant and job link columns and the `Skill` and `Company` string forms, which return the name.
- `get_absolute_url` is not modelled because it is routing.
- The `email_verified` flag is stored but nothing in the modelled code reads it.

=== FILE: application_admin.dfy ===
/** The admin page for applications (applications/admin.py): the company and status-badge
    columns and the three bulk status actions. */
module ApplicationAdmin {
  import opened Wrappers
  import opened Text
  import opened Choices
  import opened Queries
  import opened JobModel
  import opened ApplicationModel
  import opened ApplicationViews

  // ---------------------------------------------------------------- columns

  /** The "Company" column: the job's `get_company_name`. */
  function CompanyColumn(job: Job): (r: string)
    ensures job.company.Some? ==> r == job.company.value.name
    ensures job.company.None? ==> r == job.companyName
  {
    CompanyName(job)
  }

  /** The badge colour of each status. */
  const BadgeColours: map<string, string> := map[
    "applied" := "#17a2b8",
    "review" := "#ffc107",
    "interview_scheduled" := "#fd7e14",
    "interview_completed" := "#6f42c1",
    "offer" := "#28a745",
    "accepted" := "#20c997",
    "rejected" := "#dc3545",
    "withdrawn" := "#6c757d"
  ]

  /** The colour used for a status missing from the table. */
  const FallbackColour: string := "#6c757d"

  function BadgeColour(status: string): (r: string)
    ensures status in BadgeColours ==> r == BadgeColours[status]
    ensures status !in BadgeColours ==> r == FallbackColour
  {
    if status in BadgeColours then BadgeColours[status] else FallbackColour
  }

  /** Every status code has its own entry, and only those codes do. */
  lemma BadgeColoursCoverStatuses()
    ensures BadgeColours.Keys == StatusCodes
  {
  }

  /** The badge is gray exactly for a withdrawn application or a code outside the status table;
      every other status has a colour no other status shares. */
  lemma BadgeColourDistinguishesStatuses(s: string, t: string)
    ensures BadgeColour(s) == FallbackColour <==> s == "withdrawn" || s !in StatusCodes
    ensures s in StatusCodes && t in StatusCodes && s != t ==> BadgeColour(s) != BadgeColour(t)
  {
    BadgeColoursCoverStatuses();
  }

  /** The "Status" column: the colour and the status's display label. */
  function StatusBadge(a: Application): (r: (string, string))
    ensures r.0 == BadgeColour(a.status)
    ensures HasCode(StatusChoices, a.status) ==> exists i :: 0 <= i < |StatusChoices| && StatusChoices[i] == (a.status, r.1)
    ensures !HasCode(StatusChoices, a.status) ==> r.1 == a.status
  {
    (BadgeColour(a.status), BuiltinDisplay(StatusChoices, a.status))
  }

  // ---------------------------------------------------------------- bulk actions

  /** `queryset.update(status=...)` over the selected ids. `update` bypasses `save`, so
      `last_updated` keeps its old value. */
  function Restatus(rows: seq<Application>, selected: set<nat>, status: string): (r: seq<Application>)
    ensures |r| == |rows|
    ensures forall i :: 0 <= i < |rows| ==>
              r[i] == if rows[i].id in selected then rows[i].(status := status) else rows[i]
  {
    if rows == [] then []
    else
      var head := if rows[0].id in selected then rows[0].(status := status) else rows[0];
      [head] + Restatus(rows[1..], selected, status)
  }

  /** After the action every selected row has the new status; the action changes nothing but
      statuses, so both uniqueness constraints still hold. */
  lemma RestatusEffect(rows: seq<Application>, selected: set<nat>, status: string)
    ensures forall a :: a in Restatus(rows, selected, status) && a.id in selected ==> a.status == status
    ensures forall i :: 0 <= i < |rows| ==>
              var a := Restatus(rows, selected, status)[i];
              (a.id, a.job, a.applicant, a.coverLetter, a.appliedDate, a.lastUpdated, a.notes)
              == (rows[i].id, rows[i].job, rows[i].applicant, rows[i].coverLetter, rows[i].appliedDate, rows[i].lastUpdated, rows[i].notes)
    ensures UniquePairs(rows) ==> UniquePairs(Restatus(rows, selected, status))
    ensures UniqueIds(rows) ==> UniqueIds(Restatus(rows, selected, status))
  {
  }

  /** Applying a status action twice is the same as once, and of two actions in a row on the
      same selection only the later one shows. */
  lemma RestatusLastWins(rows: seq<Application>, selected: set<nat>, first: string, second: string)
    ensures Restatus(Restatus(rows, selected, first), selected, second) == Restatus(rows, selected, second)
  {
  }

  /** The number of rows `update` reports. */
  function SelectedCount(rows: seq<Application>, selected: set<nat>): (n: nat)
    ensures n <= |rows|
  {
    |Keep(rows, (a: Application) => a.id in selected)|
  }

  /** A selection that names no existing row changes nothing and reports zero. */
  lemma {:induction false} EmptySelectionChangesNothing(rows: seq<Application>, selected: set<nat>, status: string)
    requires forall a :: a in rows ==> a.id !in selected
    ensures Restatus(rows, selected, status) == rows
    ensures SelectedCount(rows, selected) == 0
  {
    if rows != [] {
      assert forall a :: a in rows[1..] ==> a in rows;
      EmptySelectionChangesNothing(rows[1..], selected, status);
      assert rows == [rows[0]] + rows[1..];
    }
  }

  /** The shared body of the three actions: update the selected rows and report how many. */
  method UpdateStatus(t: ApplicationTable, selected: set<nat>, status: string) returns (updated: nat)
    requires t.Valid()
    modifies t
    ensures t.Valid()
    ensures t.rows == Restatus(old(t.rows), selected, status) && t.nextId == old(t.nextId)
    ensures updated == SelectedCount(old(t.rows), selected)
  {
    updated := SelectedCount(t.rows, selected);
    RestatusEffect(t.rows, selected, status);
    var rows := Restatus(t.rows, selected, status);
    assert forall a :: a in rows ==> a.id < t.nextId by {
      forall a | a in rows ensures a.id < t.nextId {
        var i :| 0 <= i < |rows| && rows[i] == a;
        assert t.rows[i] in t.rows;
      }
    }
    t.rows := rows;
  }

  method MarkUnderReview(t: ApplicationTable, selected: set<nat>) returns (message: string)
    requires t.Valid()
    modifies t
    ensures t.Valid()
    ensures t.rows == Restatus(old(t.rows), selected, "review") && t.nextId == old(t.nextId)
    ensures message == Digits(SelectedCount(old(t.rows), selected)) + " applications marked as under review."
  {
    var updated := UpdateStatus(t, selected, "review");
    message := Digits(updated) + " applications marked as under review.";
  }

  method MarkInterviewed(t: ApplicationTable, selected: set<nat>) returns (message: string)
    requires t.Valid()
    modifies t
    ensures t.Valid()
    ensures t.rows == Restatus(old(t.rows), selected, "interview_completed") && t.nextId == old(t.nextId)
    ensures message == Digits(SelectedCount(old(t.rows), selected)) + " applications marked as interviewed."
  {
    var updated := UpdateStatus(t, selected, "interview_completed");
    message := Digits(updated) + " applications marked as interviewed.";
  }

  method MarkRejected(t: ApplicationTable, selected: set<nat>) returns (message: string)
    requires t.Valid()
    modifies t
    ensures t.Valid()
    ensures t.rows == Restatus(old(t.rows), selected, "rejected") && t.nextId == old(t.nextId)
    ensures message == Digits(SelectedCount(old(t.rows), selected)) + " applications marked as rejected."
  {
    var updated := UpdateStatus(t, selected, "rejected");
    message := Digits(updated) + " applications marked as rejected.";
  }
}

=== FILE: application_model.dfy ===
/** The application record (applications/models.py): the eight status codes, the default
    status, one application per (job, applicant), newest-first ordering and the string form. */
module ApplicationModel {
  import opened Wrappers
  import opened Choices
  import opened Queries
  import opened Users
  import opened JobModel

  const StatusChoices: seq<Choice> := [
    ("applied", "Applied"),
    ("review", "Under Review"),
    ("interview_scheduled", "Interview Scheduled"),
    ("interview_completed", "Interview Completed"),
    ("offer", "Offer Extended"),
    ("accepted", "Accepted"),
    ("rejected", "Rejected"),
    ("withdrawn", "Withdrawn")
  ]

  const DefaultStatus: string := "applied"

  /** The status codes, as a set. */
  const StatusCodes: set<string> := {
    "applied", "review", "interview_scheduled", "interview_completed",
    "offer", "accepted", "rejected", "withdrawn"
  }

  /** The status table lists exactly eight distinct codes, the default among them. */
  lemma StatusTable()
    ensures |StatusChoices| == 8 && UniqueCodes(StatusChoices)
    ensures forall s :: HasCode(StatusChoices, s) <==> s in StatusCodes
    ensures DefaultStatus in StatusCodes
  {
    forall s | HasCode(StatusChoices, s) ensures s in StatusCodes {
      var i :| 0 <= i < |StatusChoices| && StatusChoices[i].0 == s;
      assert i < 8;
    }
    forall s | s in StatusCodes ensures HasCode(StatusChoices, s) {
      if s == "applied" { assert StatusChoices[0].0 == s; }
      else if s == "review" { assert StatusChoices[1].0 == s; }
      else if s == "interview_scheduled" { assert StatusChoices[2].0 == s; }
      else if s == "interview_completed" { assert StatusChoices[3].0 == s; }
      else if s == "offer" { assert StatusChoices[4].0 == s; }
      else if s == "accepted" { assert StatusChoices[5].0 == s; }
      else if s == "rejected" { assert StatusChoices[6].0 == s; }
      else { assert StatusChoices[7].0 == s; }
    }
  }

  /** An application row; `job` and `applicant` are the ids of the linked rows; dates are
      integers. */
  datatype Application = Application(
    id: nat,
    job: nat,
    applicant: nat,
    coverLetter: string,
    status: string,
    appliedDate: int,
    lastUpdated: int,
    notes: string)

  /** A new application: status "applied", no recruiter notes, both timestamps set to `now`.
      The cover letter may be empty. */
  function NewApplication(id: nat, job: nat, applicant: nat, coverLetter: string, now: int): (a: Application)
    ensures a.status == DefaultStatus && a.status in StatusCodes
    ensures a.id == id && a.job == job && a.applicant == applicant && a.coverLetter == coverLetter
    ensures a.notes == "" && a.appliedDate == now && a.lastUpdated == now
  {
    Application(id, job, applicant, coverLetter, DefaultStatus, now, now, "")
  }

  /** `unique_together = ['job', 'applicant']`. */
  predicate UniquePairs(rows: seq<Application>) {
    forall i, k :: 0 <= i < k < |rows| ==> (rows[i].job, rows[i].applicant) != (rows[k].job, rows[k].applicant)
  }

  predicate UniqueIds(rows: seq<Application>) {
    forall i, k :: 0 <= i < k < |rows| ==> rows[i].id != rows[k].id
  }

  /** An application exists for (job, user). */
  predicate HasApplied(rows: seq<Application>, job: nat, user: nat) {
    exists a :: a in rows && a.job == job && a.applicant == user
  }

  /** `Meta.ordering = ['-applied_date']`: newer applications first. */
  function NewestFirst(a: Application, b: Application): bool {
    a.appliedDate >= b.appliedDate
  }

  lemma NewestFirstIsTotalPreorder()
    ensures TotalPreorder(NewestFirst)
  {
  }

  /** The rows in the default ordering. */
  function InDefaultOrder(rows: seq<Application>): (r: seq<Application>)
    ensures multiset(r) == multiset(rows)
    ensures forall i, k :: 0 <= i < k < |r| ==> r[i].appliedDate >= r[k].appliedDate
  {
    NewestFirstIsTotalPreorder();
    SortBy(rows, NewestFirst)
  }

  /** `__str__`: "<username> - <job title>". */
  function ApplicationStr(applicant: User, job: Job): (r: string)
    ensures |r| == |applicant.username| + 3 + |job.title|
    ensures r[..|applicant.username|] == applicant.username
    ensures r[|applicant.username|..|applicant.username| + 3] == " - "
    ensures r[|applicant.username| + 3..] == job.title
  {
    applicant.username + " - " + job.title
  }
}

=== FILE: application_views.dfy ===
/** The job seeker's application pages (applications/views.py): applying to an active job,
    listing one's own applications and withdrawing one. The application table is a class whose
    methods change its rows; each method is tied to a pure function of the old rows. */
module ApplicationViews {
  import opened Wrappers
  import opened Queries
  import opened Users
  import opened JobModel
  import opened ApplicationModel

  /** `ApplicationListView.paginate_by`. */
  const ApplicationsPerPage: nat := 10

  /** What a POST to the apply page leads to. Anonymous and non-seeker visitors are both
      sent home: the seeker mixin's `handle_no_permission` also serves the login check. */
  datatype ApplyOutcome =
    | JobNotFound                   // 404: no active job with that id
    | AnonymousLookup               // the duplicate query is given an anonymous user and raises
    | AlreadyApplied                // redirect to the job page with an error message
    | NotJobSeeker                  // redirect home with an error message
    | Created(application: Application)

  /** The apply view on the rows `rows`, with `nextId` the next primary key: the checks run in
      the order of `dispatch` (job lookup, duplicate query, then the login and role mixins),
      and only a job seeker's first application to an active job is stored. */
  function ApplyTo(rows: seq<Application>, nextId: nat, v: Visitor, jobId: nat, jobs: seq<Job>,
                   coverLetter: string, now: int): (r: (ApplyOutcome, seq<Application>))
    ensures r.0 == JobNotFound <==> ActiveJob(jobs, jobId).None?
    ensures r.0 == AnonymousLookup <==> ActiveJob(jobs, jobId).Some? && v.Anonymous?
    ensures r.0 == AlreadyApplied <==> ActiveJob(jobs, jobId).Some? && v.Member? && HasApplied(rows, jobId, v.user.id)
    ensures r.0 == NotJobSeeker <==>
              ActiveJob(jobs, jobId).Some? && v.Member? && !HasApplied(rows, jobId, v.user.id) && !IsJobSeeker(v)
    ensures r.0.Created? <==> ActiveJob(jobs, jobId).Some? && IsJobSeeker(v) && !HasApplied(rows, jobId, v.user.id)
    ensures r.0.Created? ==> r.0.application == NewApplication(nextId, jobId, v.user.id, coverLetter, now)
    ensures r.0.Created? ==> r.1 == rows + [r.0.application]
    ensures !r.0.Created? ==> r.1 == rows
    ensures UniquePairs(rows) ==> UniquePairs(r.1)
    ensures UniqueIds(rows) && (forall a :: a in rows ==> a.id < nextId) ==> UniqueIds(r.1)
  {
    if ActiveJob(jobs, jobId).None? then (JobNotFound, rows)
    else if v.Anonymous? then (AnonymousLookup, rows)
    else if HasApplied(rows, jobId, v.user.id) then (AlreadyApplied, rows)
    else if !IsJobSeeker(v) then (NotJobSeeker, rows)
    else
      var a := NewApplication(nextId, jobId, v.user.id, coverLetter, now);
      assert forall i :: 0 <= i < |rows| ==> rows[i] in rows;
      (Created(a), rows + [a])
  }

  /** A second application to the same job by the same user is refused. */
  lemma ApplyingTwiceIsRefused(rows: seq<Application>, nextId: nat, u: User, jobId: nat, jobs: seq<Job>,
                               coverLetter: string, now: int, coverLetter2: string, later: int)
    requires ApplyTo(rows, nextId, Member(u), jobId, jobs, coverLetter, now).0.Created?
    ensures ApplyTo(ApplyTo(rows, nextId, Member(u), jobId, jobs, coverLetter, now).1, nextId + 1,
                    Member(u), jobId, jobs, coverLetter2, later).0 == AlreadyApplied
  {
    var r := ApplyTo(rows, nextId, Member(u), jobId, jobs, coverLetter, now);
    assert r.0.application in r.1;
  }

  // ---------------------------------------------------------------- listing

  /** The user's applications, newest first: `filter(applicant=user).order_by('-applied_date')`. */
  function OwnApplications(rows: seq<Application>, user: nat): (r: seq<Application>)
    ensures forall a :: multiset(r)[a] == if a.applicant == user then multiset(rows)[a] else 0
    ensures forall a :: a in r <==> a in rows && a.applicant == user
    ensures forall i, k :: 0 <= i < k < |r| ==> r[i].appliedDate >= r[k].appliedDate
  {
    var own := Keep(rows, (a: Application) => a.applicant == user);
    var r := InDefaultOrder(own);
    PermutationSameMembers(r, own);
    r
  }

  datatype ListOutcome =
    | ListDenied                    // redirect home
    | ListNotFound                  // 404: no such page
    | ListPage(page: seq<Application>)

  /** `ApplicationListView` for page `number`. */
  function MyApplications(rows: seq<Application>, v: Visitor, number: int): (r: ListOutcome)
    ensures r.ListDenied? <==> !IsJobSeeker(v)
    ensures IsJobSeeker(v) ==>
              (r.ListPage? <==> 1 <= number <= PageCount(|OwnApplications(rows, v.user.id)|, ApplicationsPerPage))
    ensures r.ListPage? ==> Page(OwnApplications(rows, v.user.id), number, ApplicationsPerPage) == Some(r.page)
    ensures r.ListPage? ==> |r.page| <= ApplicationsPerPage && forall a :: a in r.page ==> a in rows && a.applicant == v.user.id
  {
    if !IsJobSeeker(v) then ListDenied
    else
      var own := OwnApplications(rows, v.user.id);
      match Page(own, number, ApplicationsPerPage)
      case None => ListNotFound
      case Some(page) =>
        assert forall a :: a in page ==> a in own;
        ListPage(page)
  }

  // ---------------------------------------------------------------- withdrawing

  datatype WithdrawOutcome =
    | WithdrawDenied                // redirect home
    | WithdrawNotFound              // 404: no application with that id belongs to the user
    | Withdrawn(application: Application)

  /** The first row with that id belonging to `user`, as `get_object` finds it in the queryset
      restricted to the user's own applications. */
  function OwnRow(rows: seq<Application>, id: nat, user: nat): (r: Option<nat>)
    ensures r.Some? ==> r.value < |rows| && rows[r.value].id == id && rows[r.value].applicant == user
    ensures r.None? <==> !exists a :: a in rows && a.id == id && a.applicant == user
  {
    if rows == [] then None
    else if rows[0].id == id && rows[0].applicant == user then Some(0)
    else
      match OwnRow(rows[1..], id, user)
      case None =>
        assert rows == [rows[0]] + rows[1..];
        None
      case Some(k) => Some(k + 1)
  }

  /** The rows with the one at `i` deleted. */
  function RemoveAt(rows: seq<Application>, i: nat): (r: seq<Application>)
    requires i < |rows|
    ensures |r| == |rows| - 1
    ensures multiset(r) + multiset{rows[i]} == multiset(rows)
  {
    assert rows == rows[..i] + [rows[i]] + rows[i + 1..];
    rows[..i] + rows[i + 1..]
  }

  lemma RemoveAtIndex(rows: seq<Application>, i: nat, k: nat)
    requires i < |rows| && k < |rows| - 1
    ensures RemoveAt(rows, i)[k] == if k < i then rows[k] else rows[k + 1]
  {
  }

  /** Deleting a row keeps both uniqueness constraints. */
  lemma RemoveAtKeepsUnique(rows: seq<Application>, i: nat)
    requires i < |rows|
    ensures UniquePairs(rows) ==> UniquePairs(RemoveAt(rows, i))
    ensures UniqueIds(rows) ==> UniqueIds(RemoveAt(rows, i))
  {
    var r := RemoveAt(rows, i);
    forall k | 0 <= k < |r| { RemoveAtIndex(rows, i, k); }
  }

  /** `WithdrawApplicationView` on POST: a job seeker deletes one of their own applications;
      someone else's application is a 404 and leaves the rows as they were. */
  function WithdrawFrom(rows: seq<Application>, v: Visitor, id: nat): (r: (WithdrawOutcome, seq<Application>))
    ensures r.0 == WithdrawDenied <==> !IsJobSeeker(v)
    ensures r.0 == WithdrawNotFound <==> IsJobSeeker(v) && !exists a :: a in rows && a.id == id && a.applicant == v.user.id
    ensures r.0.Withdrawn? ==> r.0.application in rows && r.0.application.id == id && r.0.application.applicant == v.user.id
    ensures r.0.Withdrawn? ==> multiset(r.1) + multiset{r.0.application} == multiset(rows)
    ensures !r.0.Withdrawn? ==> r.1 == rows
    ensures UniquePairs(rows) ==> UniquePairs(r.1)
    ensures UniqueIds(rows) ==> UniqueIds(r.1)
  {
    if !IsJobSeeker(v) then (WithdrawDenied, rows)
    else match OwnRow(rows, id, v.user.id)
      case None => (WithdrawNotFound, rows)
      case Some(i) =>
        RemoveAtKeepsUnique(rows, i);
        (Withdrawn(rows[i]), RemoveAt(rows, i))
  }

  /** After withdrawing, the user has no application to that job left, so may apply again. */
  lemma WithdrawnCanReapply(rows: seq<Application>, v: Visitor, id: nat)
    requires UniquePairs(rows)
    requires WithdrawFrom(rows, v, id).0.Withdrawn?
    ensures !HasApplied(WithdrawFrom(rows, v, id).1, WithdrawFrom(rows, v, id).0.application.job, v.user.id)
  {
    var r := WithdrawFrom(rows, v, id);
    var w := r.0.application;
    NoDuplicatesInPairs(rows);
    NoDuplicatesCountsOnce(rows);
    assert multiset(r.1)[w] == 0;
    var i :| 0 <= i < |rows| && rows[i] == w;
    forall b | b in r.1 ensures b.job != w.job || b.applicant != w.applicant {
      assert b in multiset(r.1);
      assert b != w;
      assert b in multiset(rows);
      var k :| 0 <= k < |rows| && rows[k] == b;
      assert k != i;
    }
  }

  lemma NoDuplicatesInPairs(rows: seq<Application>)
    requires UniquePairs(rows)
    ensures NoDuplicates(rows)
  {
  }

  // ---------------------------------------------------------------- the table

  /** The `applications_application` table. */
  class ApplicationTable {
    var rows: seq<Application>
    /** The next primary key the database hands out. */
    var nextId: nat

    ghost predicate Valid()
      reads this
    {
      UniquePairs(rows) && UniqueIds(rows) && forall a :: a in rows ==> a.id < nextId
    }

    constructor ()
      ensures Valid() && rows == []
    {
      rows, nextId := [], 1;
    }

    /** A POST to the apply page. */
    method Apply(v: Visitor, jobId: nat, jobs: seq<Job>, coverLetter: string, now: int) returns (outcome: ApplyOutcome)
      requires Valid()
      modifies this
      ensures Valid()
      ensures (outcome, rows) == ApplyTo(old(rows), old(nextId), v, jobId, jobs, coverLetter, now)
      ensures nextId == if outcome.Created? then old(nextId) + 1 else old(nextId)
    {
      var r := ApplyTo(rows, nextId, v, jobId, jobs, coverLetter, now);
      outcome := r.0;
      if outcome.Created? {
        rows := rows + [outcome.application];
        nextId := nextId + 1;
      }
    }

    /** A POST to the withdraw page. */
    method Withdraw(v: Visitor, id: nat) returns (outcome: WithdrawOutcome)
      requires Valid()
      modifies this
      ensures Valid()
      ensures (outcome, rows) == WithdrawFrom(old(rows), v, id)
      ensures nextId == old(nextId)
    {
      var r := WithdrawFrom(rows, v, id);
      outcome := r.0;
      if outcome.Withdrawn? {
        var i := OwnRow(rows, id, v.user.id).value;
        rows := RemoveAt(rows, i);
      }
      assert forall a :: a in rows ==> a in old(rows) by {
        forall a | a in rows ensures a in old(rows) {
          assert a in multiset(rows);
        }
      }
    }
  }
}

=== FILE: choices.dfy ===
/** Django choice tables: `(code, label)` pairs and the dictionary lookup the display helpers
    perform on them. */
module Choices {
  import opened Wrappers

  /** A `(code, label)` pair of a Django choice table. */
  type Choice = (string, string)

  predicate HasCode(table: seq<Choice>, code: string) {
    exists i :: 0 <= i < |table| && table[i].0 == code
  }

  predicate UniqueCodes(table: seq<Choice>) {
    forall i, j :: 0 <= i < j < |table| ==> table[i].0 != table[j].0
  }

  /** `dict(table).get(code)`: the label of the last pair with that code, as building a dict
      from pairs keeps the last one. */
  function Lookup(table: seq<Choice>, code: string): (r: Option<string>)
    ensures r.Some? <==> HasCode(table, code)
    ensures r.Some? ==> exists i :: 0 <= i < |table| && table[i] == (code, r.value)
                          && forall k :: i < k < |table| ==> table[k].0 != code
  {
    if table == [] then None
    else if table[|table| - 1].0 == code then Some(table[|table| - 1].1)
    else
      var r := Lookup(table[..|table| - 1], code);
      assert forall i :: 0 <= i < |table| - 1 ==> table[..|table| - 1][i] == table[i];
      r
  }

  /** Django's built-in `get_FOO_display`: the label of a known code, otherwise the stored
      value itself. */
  function BuiltinDisplay(table: seq<Choice>, code: string): (r: string)
    ensures HasCode(table, code) ==> exists i :: 0 <= i < |table| && table[i] == (code, r)
    ensures !HasCode(table, code) ==> r == code
  {
    match Lookup(table, code)
    case Some(text) => text
    case None => code
  }
}

=== FILE: job_admin.dfy ===
/** The admin page for jobs (jobs/admin.py): the company, status and application-count columns
    and the three bulk actions that switch postings on and off. */
module JobAdmin {
  import opened Wrappers
  import opened Text
  import opened Queries
  import opened JobModel
  import opened ApplicationModel

  // ---------------------------------------------------------------- columns

  const NoCompany: string := "No Company"

  /** The "Company" column: the linked company's name; without one, the free-text name, or
      "No Company" when that is empty. */
  function CompanyColumn(j: Job): (r: string)
    ensures j.company.Some? ==> r == j.company.value.name
    ensures j.company.None? && j.companyName != "" ==> r == j.companyName
    ensures j.company.None? && j.companyName == "" ==> r == NoCompany
  {
    match j.company
    case Some(c) => c.name
    case None => if j.companyName != "" then j.companyName else NoCompany
  }

  /** The column agrees with the model's `get_company_name` except that an unlinked job with an
      empty free-text name shows "No Company" instead of nothing. */
  lemma CompanyColumnAgreesWithModel(j: Job)
    ensures CompanyColumn(j) == if j.company.None? && CompanyName(j) == "" then NoCompany else CompanyName(j)
    ensures j.company.None? ==> CompanyColumn(j) != ""
  {
  }

  /** The "Status" column's text. */
  function ActiveStatusColumn(j: Job): (r: string)
    ensures r == "✓ Active" <==> j.isActive
    ensures r == "✗ Inactive" <==> !j.isActive
  {
    if j.isActive then "✓ Active" else "✗ Inactive"
  }

  /** `obj.applications.count()`. */
  function ApplicationCount(apps: seq<Application>, job: nat): (n: nat)
    ensures n == 0 <==> !HasApplications(apps, job)
  {
    |Keep(apps, (a: Application) => a.job == job)|
  }

  /** Some application points at the job. */
  predicate HasApplications(apps: seq<Application>, job: nat) {
    exists a :: a in apps && a.job == job
  }

  const ApplicationsSuffix: string := " applications"

  /** The "Applications" column's text: the count followed by " applications" (a link when
      positive, plain text "0 applications" otherwise). */
  function ApplicationCountColumn(count: nat): (r: string)
  {
    if count > 0 then Digits(count) + ApplicationsSuffix else "0" + ApplicationsSuffix
  }

  /** The column reads back as the count, and it says "0 applications" exactly when there are
      none: a positive count never starts with the digit 0. */
  lemma ApplicationCountColumnReadsBack(count: nat)
    ensures |ApplicationCountColumn(count)| > |ApplicationsSuffix|
    ensures var r := ApplicationCountColumn(count);
            r[|r| - |ApplicationsSuffix|..] == ApplicationsSuffix
            && AllDigits(r[..|r| - |ApplicationsSuffix|])
            && ParseDecimal(r[..|r| - |ApplicationsSuffix|]) == count
    ensures ApplicationCountColumn(count) == "0 applications" <==> count == 0
  {
    var r := ApplicationCountColumn(count);
    DigitsRoundTrip(count);
    assert Digits(0) == "0";
    assert r[..|r| - |ApplicationsSuffix|] == Digits(count);
    DigitsLeadingDigit(count);
    assert r[0] == Digits(count)[0];
  }

  // ---------------------------------------------------------------- bulk actions

  /** `queryset.update(is_active=...)` over the selected ids; no other column changes. */
  function SetActive(jobs: seq<Job>, selected: set<nat>, active: bool): (r: seq<Job>)
    ensures |r| == |jobs|
    ensures forall i :: 0 <= i < |jobs| ==>
              r[i] == if jobs[i].id in selected then jobs[i].(isActive := active) else jobs[i]
  {
    if jobs == [] then []
    else
      var head := if jobs[0].id in selected then jobs[0].(isActive := active) else jobs[0];
      [head] + SetActive(jobs[1..], selected, active)
  }

  /** The number of rows `update` reports. */
  function SelectedCount(jobs: seq<Job>, selected: set<nat>): (n: nat)
    ensures n <= |jobs|
  {
    |Keep(jobs, (j: Job) => j.id in selected)|
  }

  /** Some row with this id is on the public (active) list. */
  predicate ListsId(jobs: seq<Job>, id: nat) {
    exists j :: j in ActiveJobs(jobs) && j.id == id
  }

  /** Listing read off the rows: some row has the id and is active. */
  lemma ListsIdAt(jobs: seq<Job>, id: nat)
    ensures ListsId(jobs, id) <==> exists i :: 0 <= i < |jobs| && jobs[i].id == id && jobs[i].isActive
  {
    if exists i :: 0 <= i < |jobs| && jobs[i].id == id && jobs[i].isActive {
      var i :| 0 <= i < |jobs| && jobs[i].id == id && jobs[i].isActive;
      assert jobs[i] in ActiveJobs(jobs);
    }
  }

  /** Whether a row is active once an action has run over the selection. */
  predicate ActiveAfter(j: Job, selected: set<nat>, active: bool) {
    if j.id in selected then active else j.isActive
  }

  /** The effect of an action on the public list: a job is listed afterwards exactly when its
      row was selected and the action activates, or was not selected and was already active. */
  lemma SetActiveEffectOnListing(jobs: seq<Job>, selected: set<nat>, active: bool, id: nat)
    ensures ListsId(SetActive(jobs, selected, active), id) <==>
              exists j :: j in jobs && j.id == id && ActiveAfter(j, selected, active)
  {
    var r := SetActive(jobs, selected, active);
    ListsIdAt(r, id);
    assert forall i :: 0 <= i < |jobs| ==> r[i].id == jobs[i].id && (r[i].isActive <==> ActiveAfter(jobs[i], selected, active));
    if exists j :: j in jobs && j.id == id && ActiveAfter(j, selected, active) {
      var j :| j in jobs && j.id == id && ActiveAfter(j, selected, active);
      var i :| 0 <= i < |jobs| && jobs[i] == j;
      assert r[i].id == id && r[i].isActive;
    }
    if ListsId(r, id) {
      var i :| 0 <= i < |r| && r[i].id == id && r[i].isActive;
      assert jobs[i] in jobs;
    }
  }

  /** An action changes no column of any row but `is_active`. */
  lemma SetActiveKeepsOtherColumns(jobs: seq<Job>, selected: set<nat>, active: bool)
    ensures forall i :: 0 <= i < |jobs| ==>
              SetActive(jobs, selected, active)[i].(isActive := jobs[i].isActive) == jobs[i]
  {
  }

  /** Running an action again changes nothing; of two actions on the same selection only the
      later one shows. */
  lemma SetActiveLastWins(jobs: seq<Job>, selected: set<nat>, first: bool, second: bool)
    ensures SetActive(SetActive(jobs, selected, first), selected, second) == SetActive(jobs, selected, second)
  {
  }

  /** Deactivation leaves none of the selected jobs among the active ones. */
  lemma DeactivatedLeaveTheListing(jobs: seq<Job>, selected: set<nat>)
    ensures forall j :: j in ActiveJobs(SetActive(jobs, selected, false)) ==> j.id !in selected
    ensures forall j :: j in ActiveJobs(jobs) && j.id !in selected ==> j in ActiveJobs(SetActive(jobs, selected, false))
  {
    var r := SetActive(jobs, selected, false);
    forall j | j in ActiveJobs(jobs) && j.id !in selected ensures j in r {
      var i :| 0 <= i < |jobs| && jobs[i] == j;
      assert r[i] == j;
    }
  }

  /** The `jobs_job` table as the admin edits it. */
  class JobTable {
    var jobs: seq<Job>

    ghost predicate Valid()
      reads this
    {
      UniqueJobIds(jobs)
    }

    constructor (jobs: seq<Job>)
      requires UniqueJobIds(jobs)
      ensures Valid() && this.jobs == jobs
    {
      this.jobs := jobs;
    }

    /** The shared body of the three actions. */
    method Update(selected: set<nat>, active: bool) returns (updated: nat)
      requires Valid()
      modifies this
      ensures Valid()
      ensures jobs == SetActive(old(jobs), selected, active)
      ensures updated == SelectedCount(old(jobs), selected)
    {
      updated := SelectedCount(jobs, selected);
      jobs := SetActive(jobs, selected, active);
    }
  }

  method ActivateJobs(t: JobTable, selected: set<nat>) returns (message: string)
    requires t.Valid()
    modifies t
    ensures t.Valid() && t.jobs == SetActive(old(t.jobs), selected, true)
    ensures message == Digits(SelectedCount(old(t.jobs), selected)) + " jobs have been activated."
  {
    var updated := t.Update(selected, true);
    message := Digits(updated) + " jobs have been activated.";
  }

  method DeactivateJobs(t: JobTable, selected: set<nat>) returns (message: string)
    requires t.Valid()
    modifies t
    ensures t.Valid() && t.jobs == SetActive(old(t.jobs), selected, false)
    ensures message == Digits(SelectedCount(old(t.jobs), selected)) + " jobs have been deactivated."
  {
    var updated := t.Update(selected, false);
    message := Digits(updated) + " jobs have been deactivated.";
  }

  /** Same table change as `DeactivateJobs`; only the message differs. */
  method MarkAsFilled(t: JobTable, selected: set<nat>) returns (message: string)
    requires t.Valid()
    modifies t
    ensures t.Valid() && t.jobs == SetActive(old(t.jobs), selected, false)
    ensures message == Digits(SelectedCount(old(t.jobs), selected)) + " jobs have been marked as filled."
  {
    var updated := t.Update(selected, false);
    message := Digits(updated) + " jobs have been marked as filled.";
  }
}

=== FILE: job_filters.dfy ===
/** The job search filter set (jobs/filters.py): three case-insensitive text searches, a
    salary floor, an any-of skill filter and four exact-match fields, combined by conjunction.
    Under the list view's strict mode, input that fails validation yields no jobs at all. */
module JobFilters {
  import opened Wrappers
  import opened Text
  import opened Choices
  import opened Queries
  import opened JobModel

  /** The cleaned query. An empty string, an absent number, an empty skill selection and an
      absent visa choice each mean "no constraint". */
  datatype FilterParams = FilterParams(
    title: string,
    companyName: string,
    location: string,
    salaryMin: Option<int>,
    requiredSkills: set<nat>,
    jobType: string,
    locationType: string,
    experienceLevel: string,
    visaSponsorship: Option<bool>)

  /** The query with every field left empty. */
  const NoFilter: FilterParams := FilterParams("", "", "", None, {}, "", "", "", None)

  /** `CharFilter(lookup_expr='icontains')`: skipped when empty, otherwise a case-insensitive
      substring test. */
  predicate TextMatches(query: string, field: string) {
    query == "" || IContains(field, query)
  }

  /** `NumberFilter(lookup_expr='gte')` on `salary_min`: a job without a minimum salary never
      passes a given floor. */
  predicate SalaryFloorMatches(floor: Option<int>, salaryMin: Option<nat>) {
    floor.None? || (salaryMin.Some? && salaryMin.value >= floor.value)
  }

  /** `ModelMultipleChoiceFilter` (not conjoined): a job passes when it requires at least one
      of the selected skills. */
  predicate SkillsMatch(selected: set<nat>, required: set<nat>) {
    selected == {} || selected * required != {}
  }

  /** The exact-match filters generated from `Meta.fields`. */
  predicate ExactMatches(query: string, field: string) {
    query == "" || query == field
  }

  predicate Matches(p: FilterParams, j: Job) {
    && TextMatches(p.title, j.title)
    && TextMatches(p.companyName, j.companyName)
    && TextMatches(p.location, j.location)
    && SalaryFloorMatches(p.salaryMin, j.salaryMin)
    && SkillsMatch(p.requiredSkills, j.requiredSkills)
    && ExactMatches(p.jobType, j.jobType)
    && ExactMatches(p.locationType, j.locationType)
    && ExactMatches(p.experienceLevel, j.experienceLevel)
    && (p.visaSponsorship.None? || p.visaSponsorship.value == j.visaSponsorship)
  }

  /** The filter form accepts the query: each choice field is empty or one of its table's codes,
      and every selected skill exists. */
  predicate ValidParams(p: FilterParams, knownSkills: set<nat>) {
    && (p.jobType == "" || HasCode(JobTypes, p.jobType))
    && (p.locationType == "" || HasCode(LocationTypes, p.locationType))
    && (p.experienceLevel == "" || HasCode(ExperienceLevels, p.experienceLevel))
    && p.requiredSkills <= knownSkills
  }

  /** `filterset.qs` under strict mode: the matching jobs in their original order, or nothing
      when the query does not validate. */
  function FilterJobs(p: FilterParams, knownSkills: set<nat>, jobs: seq<Job>): (r: seq<Job>)
    ensures !ValidParams(p, knownSkills) ==> r == []
    ensures |r| <= |jobs|
    ensures forall j :: j in r <==> ValidParams(p, knownSkills) && j in jobs && Matches(p, j)
    ensures forall j :: multiset(r)[j] == if ValidParams(p, knownSkills) && Matches(p, j) then multiset(jobs)[j] else 0
  {
    if ValidParams(p, knownSkills) then Keep(jobs, (j: Job) => Matches(p, j)) else []
  }

  /** An empty query keeps every job, in order. */
  lemma NoFilterKeepsAll(knownSkills: set<nat>, jobs: seq<Job>)
    ensures FilterJobs(NoFilter, knownSkills, jobs) == jobs
  {
    KeepAll(jobs, (j: Job) => Matches(NoFilter, j));
  }

  /** The text searches ignore ASCII case on both sides. */
  lemma TitleSearchIgnoresCase(p: FilterParams, j: Job)
    ensures Matches(p.(title := Lower(p.title)), j) == Matches(p, j)
    ensures Matches(p, j.(title := Lower(j.title))) == Matches(p, j)
  {
    LowerIdempotent(p.title);
    LowerIdempotent(j.title);
    assert Lower(p.title) == "" <==> p.title == "";
  }

  lemma LowerIdempotent(s: string)
    ensures Lower(Lower(s)) == Lower(s)
  {
  }

  /** Searching by a salary floor alone drops every job whose minimum salary is not specified,
      and keeps exactly those whose minimum reaches the floor, each as often as in the table. */
  lemma SalaryFloorSemantics(floor: int, knownSkills: set<nat>, jobs: seq<Job>)
    ensures forall j :: j in FilterJobs(NoFilter.(salaryMin := Some(floor)), knownSkills, jobs) <==>
              j in jobs && j.salaryMin.Some? && j.salaryMin.value >= floor
    ensures forall j :: multiset(FilterJobs(NoFilter.(salaryMin := Some(floor)), knownSkills, jobs))[j] ==
              if j.salaryMin.Some? && j.salaryMin.value >= floor then multiset(jobs)[j] else 0
  {
    var p := NoFilter.(salaryMin := Some(floor));
    assert ValidParams(p, knownSkills);
    forall j: Job ensures Matches(p, j) <==> j.salaryMin.Some? && j.salaryMin.value >= floor {
    }
  }

  /** Selecting skills keeps exactly the jobs that require at least one of them; selecting more
      skills never removes a job. */
  lemma SkillSelectionWidens(a: set<nat>, b: set<nat>, required: set<nat>)
    requires a != {} && a <= b
    ensures SkillsMatch(a, required) ==> SkillsMatch(b, required)
    ensures SkillsMatch(b, required) <==> exists s :: s in b && s in required
  {
    if SkillsMatch(a, required) {
      var s :| s in a * required;
      assert s in b * required;
    }
    if exists s :: s in b && s in required {
      var s :| s in b && s in required;
      assert s in b * required;
    }
  }

  /** Adding a constraint to a query never adds a job: with `q` agreeing with `p` except that
      `q` fills in fields that `p` left empty, `q`'s result is a sub-multiset of `p`'s. */
  predicate Narrows(q: FilterParams, p: FilterParams) {
    && (p.title == "" || q.title == p.title)
    && (p.companyName == "" || q.companyName == p.companyName)
    && (p.location == "" || q.location == p.location)
    && (p.salaryMin.None? || q.salaryMin == p.salaryMin)
    && (p.requiredSkills == {} || q.requiredSkills == p.requiredSkills)
    && (p.jobType == "" || q.jobType == p.jobType)
    && (p.locationType == "" || q.locationType == p.locationType)
    && (p.experienceLevel == "" || q.experienceLevel == p.experienceLevel)
    && (p.visaSponsorship.None? || q.visaSponsorship == p.visaSponsorship)
  }

  lemma NarrowingOnlyRemoves(q: FilterParams, p: FilterParams, knownSkills: set<nat>, jobs: seq<Job>)
    requires Narrows(q, p)
    ensures multiset(FilterJobs(q, knownSkills, jobs)) <= multiset(FilterJobs(p, knownSkills, jobs))
  {
    if ValidParams(q, knownSkills) {
      forall j | Matches(q, j) ensures Matches(p, j) {
        EmptyQueryMatchesAll(j.title);
        EmptyQueryMatchesAll(j.companyName);
        EmptyQueryMatchesAll(j.location);
      }
      assert ValidParams(p, knownSkills);
      var rq, rp := FilterJobs(q, knownSkills, jobs), FilterJobs(p, knownSkills, jobs);
      forall j ensures multiset(rq)[j] <= multiset(rp)[j] {
      }
    }
  }

  /** Filtering a table without repeated rows yields a list without repeated rows. */
  lemma FilterKeepsDistinct(p: FilterParams, knownSkills: set<nat>, jobs: seq<Job>)
    requires NoDuplicates(jobs)
    ensures NoDuplicates(FilterJobs(p, knownSkills, jobs))
  {
    if ValidParams(p, knownSkills) {
      KeepNoDuplicates(jobs, (j: Job) => Matches(p, j));
    }
  }
}

=== FILE: job_forms.dfy ===
/** The job posting form and the job search form (jobs/forms.py): which fields are required,
    the two cross-field checks of a posting, and the choice lists of the search form. */
module JobForms {
  import opened Wrappers
  import opened Choices
  import opened JobModel

  datatype FormError =
    | DeadlineInPast    // "Application deadline cannot be in the past."
    | SalaryOrder       // "Maximum salary must be greater than minimum salary."
    | BelowMinValue     // an IntegerField with min_value=0 given a negative number

  // ---------------------------------------------------------------- JobForm

  /** `JobForm.Meta.fields`, in order. */
  const JobFormFields: seq<string> := [
    "title", "description", "requirements", "company_name",
    "location", "location_type", "job_type", "experience_level",
    "salary_min", "salary_max", "salary_currency", "benefits",
    "required_skills", "visa_sponsorship", "application_deadline"
  ]

  /** The fields that start optional: model fields declared `blank=True`, the model
      BooleanField (an optional checkbox), and the form's own `required_skills` and
      `application_deadline`, declared with `required=False`. */
  const OptionalFields: set<string> := {
    "salary_min", "salary_max", "benefits", "required_skills", "visa_sponsorship", "application_deadline"
  }

  /** The `required` flag of each field before `__init__` runs. */
  const BaseRequired: map<string, bool> := map f | f in JobFormFields :: f !in OptionalFields

  /** The names `__init__` forces to required. */
  const ForcedRequired: seq<string> := [
    "title", "description", "location", "company_name", "job_type", "location_type", "experience_level"
  ]

  /** The flags after every listed name that is a field has been set to required. */
  function ForceRequired(flags: map<string, bool>, names: seq<string>): (r: map<string, bool>)
  {
    map f | f in flags :: f in names || flags[f]
  }

  /** The posting form's required flags once `__init__` has run: the seven forced fields are
      required, the skills and the deadline stay optional, and no field is added or dropped. */
  lemma JobFormRequiredFlags()
    ensures ForceRequired(BaseRequired, ForcedRequired).Keys == set f | f in JobFormFields
    ensures forall f :: f in ForcedRequired ==> ForceRequired(BaseRequired, ForcedRequired)[f]
    ensures !ForceRequired(BaseRequired, ForcedRequired)["required_skills"]
    ensures !ForceRequired(BaseRequired, ForcedRequired)["application_deadline"]
  {
    assert "required_skills" in JobFormFields && "application_deadline" in JobFormFields;
    assert "required_skills" !in ForcedRequired && "application_deadline" !in ForcedRequired;
  }

  /** Forcing keeps the field set, never turns a required field into an optional one, makes
      every listed field required, and doing it twice is the same as doing it once. */
  lemma ForceRequiredOnlyAdds(flags: map<string, bool>, names: seq<string>)
    ensures ForceRequired(flags, names).Keys == flags.Keys
    ensures forall f :: f in flags && flags[f] ==> ForceRequired(flags, names)[f]
    ensures forall f :: f in flags && f in names ==> ForceRequired(flags, names)[f]
    ensures ForceRequired(ForceRequired(flags, names), names) == ForceRequired(flags, names)
  {
  }

  /** The `salary_currency` field offers the model's currency table and starts on "USD". */
  const CurrencyFieldChoices: seq<Choice> := CurrencyChoices
  const CurrencyFieldInitial: string := "USD"

  class JobForm {
    /** `self.fields[name].required` for each field of the form. */
    var required: map<string, bool>

    constructor ()
      ensures required == ForceRequired(BaseRequired, ForcedRequired)
    {
      required := BaseRequired;
      new;
      ForceListedRequired();
    }

    /** The loop of `__init__`: each listed name that is a field becomes required. */
    method ForceListedRequired()
      modifies this
      ensures required == ForceRequired(old(required), ForcedRequired)
    {
      for k := 0 to |ForcedRequired|
        invariant required == ForceRequired(old(required), ForcedRequired[..k])
      {
        var f := ForcedRequired[k];
        assert ForcedRequired[..k + 1] == ForcedRequired[..k] + [f];
        if f in required {
          required := required[f := true];
        }
      }
      assert ForcedRequired[..|ForcedRequired|] == ForcedRequired;
    }
  }

  /** `clean_application_deadline`: a deadline strictly before today is rejected; an absent
      deadline, today and later dates are returned unchanged. */
  function CleanApplicationDeadline(deadline: Option<int>, today: int): (r: Result<Option<int>, FormError>)
    ensures r.Err? <==> deadline.Some? && deadline.value < today
    ensures r.Err? ==> r.error == DeadlineInPast
    ensures r.Ok? ==> r.value == deadline
  {
    if deadline.Some? && deadline.value < today then Err(DeadlineInPast) else Ok(deadline)
  }

  /** `clean`: with both salaries truthy, a minimum at or above the maximum is rejected; an
      absent or zero salary skips the check; accepted data passes unchanged. */
  function CleanSalaryRange(salaryMin: Option<nat>, salaryMax: Option<nat>): (r: Result<(Option<nat>, Option<nat>), FormError>)
    ensures r.Err? <==> salaryMin.Some? && salaryMin.value > 0 && salaryMax.Some? && salaryMax.value > 0
                        && salaryMin.value >= salaryMax.value
    ensures r.Err? ==> r.error == SalaryOrder
    ensures r.Ok? ==> r.value == (salaryMin, salaryMax)
  {
    if Truthy(salaryMin) && Truthy(salaryMax) && salaryMin.value >= salaryMax.value then Err(SalaryOrder)
    else Ok((salaryMin, salaryMax))
  }

  /** An accepted posting with both salaries truthy has a strictly increasing range. */
  lemma AcceptedRangeIsIncreasing(salaryMin: Option<nat>, salaryMax: Option<nat>)
    requires CleanSalaryRange(salaryMin, salaryMax).Ok?
    ensures Truthy(salaryMin) && Truthy(salaryMax) ==> salaryMin.value < salaryMax.value
  {
  }

  // ---------------------------------------------------------------- JobFilterForm

  const AnyChoice: Choice := ("", "Any")

  /** The choice list of a search field bound to a model table: "Any" first, then the table. */
  function WithAny(table: seq<Choice>): (r: seq<Choice>)
    ensures |r| == |table| + 1 && r[0] == AnyChoice && r[1..] == table
  {
    [AnyChoice] + table
  }

  const VisaChoices: seq<Choice> := [("", "Any"), ("yes", "Yes"), ("no", "No")]

  /** The currency field starts on one of its own choices; the visa field offers exactly
      "Any", "yes" and "no". */
  lemma SearchAndCurrencyChoices()
    ensures HasCode(CurrencyFieldChoices, CurrencyFieldInitial)
    ensures forall code :: HasCode(VisaChoices, code) <==> code == "" || code == "yes" || code == "no"
  {
    assert CurrencyFieldChoices[0].0 == CurrencyFieldInitial;
    forall code | HasCode(VisaChoices, code) ensures code == "" || code == "yes" || code == "no" {
      var i :| 0 <= i < |VisaChoices| && VisaChoices[i].0 == code;
      assert i == 0 || i == 1 || i == 2;
    }
    assert VisaChoices[0].0 == "" && VisaChoices[1].0 == "yes" && VisaChoices[2].0 == "no";
  }

  class JobFilterForm {
    var jobTypeChoices: seq<Choice>
    var locationTypeChoices: seq<Choice>
    var experienceLevelChoices: seq<Choice>

    /** The declared fields start with only "Any"; `__init__` rebinds them to the model tables. */
    constructor ()
      ensures jobTypeChoices == WithAny(JobTypes)
      ensures locationTypeChoices == WithAny(LocationTypes)
      ensures experienceLevelChoices == WithAny(ExperienceLevels)
    {
      jobTypeChoices, locationTypeChoices, experienceLevelChoices := [AnyChoice], [AnyChoice], [AnyChoice];
      new;
      jobTypeChoices := WithAny(JobTypes);
      locationTypeChoices := WithAny(LocationTypes);
      experienceLevelChoices := WithAny(ExperienceLevels);
    }
  }

  /** `IntegerField(required=False, min_value=0)` for the search bounds: empty passes as None,
      a negative number is rejected, anything else passes unchanged. */
  function CleanSearchBound(value: Option<int>): (r: Result<Option<nat>, FormError>)
    ensures r.Err? <==> value.Some? && value.value < 0
    ensures r.Ok? ==> (r.value.Some? <==> value.Some?)
    ensures r.Ok? && value.Some? ==> r.value.value == value.value
  {
    match value
    case None => Ok(None)
    case Some(v) => if v < 0 then Err(BelowMinValue) else Ok(Some(v))
  }
}

=== FILE: job_model.dfy ===
/** The job posting record (jobs/models.py): its choice tables and defaults, the company-name
    fallback, the human-readable display helpers and the salary text. */
module JobModel {
  import opened Wrappers
  import opened Text
  import opened Choices
  import opened Queries

  const JobTypes: seq<Choice> := [
    ("full_time", "Full Time"),
    ("part_time", "Part Time"),
    ("contract", "Contract"),
    ("internship", "Internship")
  ]

  const LocationTypes: seq<Choice> := [
    ("remote", "Remote"),
    ("onsite", "On-Site"),
    ("hybrid", "Hybrid")
  ]

  const ExperienceLevels: seq<Choice> := [
    ("entry", "Entry Level"),
    ("mid", "Mid Level"),
    ("senior", "Senior Level"),
    ("lead", "Lead/Principal")
  ]

  const CurrencyChoices: seq<Choice> := [
    ("USD", "US Dollar ($)"),
    ("EUR", "Euro (€)"),
    ("GBP", "British Pound (£)"),
    ("CAD", "Canadian Dollar (C$)"),
    ("AUD", "Australian Dollar (A$)"),
    ("JPY", "Japanese Yen (¥)")
  ]

  /** The symbol table that both `get_salary_display` and `get_currency_symbol` consult. */
  const CurrencySymbols: map<string, string> := map[
    "USD" := "$",
    "EUR" := "€",
    "GBP" := "£",
    "CAD" := "C$",
    "AUD" := "A$",
    "JPY" := "¥"
  ]

  const SalaryNotSpecified: string := "Salary not specified"

  /** A company row; only its unique name and creator matter to the model. */
  datatype Company = Company(id: nat, name: string, createdBy: nat)

  /** A job row. Skills are referenced by id; dates and timestamps are integers. The salary
      columns are `PositiveIntegerField(null=True)`: absent or a non-negative integer. */
  datatype Job = Job(
    id: nat,
    title: string,
    description: string,
    requirements: string,
    company: Option<Company>,
    companyName: string,
    location: string,
    locationType: string,
    jobType: string,
    experienceLevel: string,
    salaryMin: Option<nat>,
    salaryMax: Option<nat>,
    salaryCurrency: string,
    requiredSkills: set<nat>,
    benefits: string,
    visaSponsorship: bool,
    isActive: bool,
    postedBy: nat,
    applicationDeadline: Option<int>,
    createdAt: int)

  /** A job created with only the fields that have no default. */
  function NewJob(id: nat, title: string, description: string, requirements: string,
                  company: Option<Company>, companyName: string, location: string,
                  locationType: string, jobType: string, postedBy: nat, createdAt: int): (j: Job)
    ensures j.experienceLevel == "mid" && j.salaryCurrency == "USD"
    ensures !j.visaSponsorship && j.isActive
    ensures j.salaryMin == None && j.salaryMax == None && j.applicationDeadline == None
    ensures j.requiredSkills == {} && j.benefits == ""
    ensures j.id == id && j.title == title && j.company == company && j.companyName == companyName
    ensures j.description == description && j.requirements == requirements
    ensures j.location == location && j.locationType == locationType && j.jobType == jobType
    ensures j.postedBy == postedBy && j.createdAt == createdAt
  {
    Job(id, title, description, requirements, company, companyName, location, locationType,
        jobType, "mid", None, None, "USD", {}, "", false, true, postedBy, None, createdAt)
  }

  /** The default experience level and currency are codes of their own choice tables. */
  lemma DefaultsAreChoices()
    ensures exists i :: 0 <= i < |ExperienceLevels| && ExperienceLevels[i].0 == "mid"
    ensures exists i :: 0 <= i < |CurrencyChoices| && CurrencyChoices[i].0 == "USD"
  {
    assert ExperienceLevels[1].0 == "mid";
    assert CurrencyChoices[0].0 == "USD";
  }

  // ---------------------------------------------------------------- queries on the job table

  /** `Job.objects.filter(is_active=True)`, in table order. */
  function ActiveJobs(jobs: seq<Job>): (r: seq<Job>)
    ensures forall j :: j in r <==> j in jobs && j.isActive
    ensures forall j :: multiset(r)[j] == if j.isActive then multiset(jobs)[j] else 0
  {
    Keep(jobs, (j: Job) => j.isActive)
  }

  /** `Meta.ordering = ['-created_at']`: newer postings first. */
  function NewestPostedFirst(a: Job, b: Job): bool {
    a.createdAt >= b.createdAt
  }

  lemma NewestPostedFirstIsTotalPreorder()
    ensures TotalPreorder(NewestPostedFirst)
  {
  }

  /** Jobs in the default ordering. */
  function InPostedOrder(jobs: seq<Job>): (r: seq<Job>)
    ensures multiset(r) == multiset(jobs)
    ensures forall i, k :: 0 <= i < k < |r| ==> r[i].createdAt >= r[k].createdAt
  {
    NewestPostedFirstIsTotalPreorder();
    SortBy(jobs, NewestPostedFirst)
  }

  /** Primary keys are unique in the job table. */
  predicate UniqueJobIds(jobs: seq<Job>) {
    forall i, k :: 0 <= i < k < |jobs| ==> jobs[i].id != jobs[k].id
  }

  /** `get_object_or_404(Job, pk=id, is_active=True)`: the active job with that id, or None
      for the 404. */
  function ActiveJob(jobs: seq<Job>, id: nat): (r: Option<Job>)
    ensures r.Some? <==> exists j :: j in jobs && j.isActive && j.id == id
    ensures r.Some? ==> r.value in jobs && r.value.isActive && r.value.id == id
  {
    if jobs == [] then None
    else if jobs[0].isActive && jobs[0].id == id then Some(jobs[0])
    else
      var r := ActiveJob(jobs[1..], id);
      assert jobs == [jobs[0]] + jobs[1..];
      r
  }

  // ---------------------------------------------------------------- company name and __str__

  /** `get_company_name`: the linked company's name when there is one, else the free text. */
  function CompanyName(j: Job): (r: string)
    ensures j.company.Some? ==> r == j.company.value.name
    ensures j.company.None? ==> r == j.companyName
  {
    match j.company
    case Some(c) => c.name
    case None => j.companyName
  }

  /** `__str__`: "<title> at <company name>". */
  function JobStr(j: Job): (r: string)
    ensures |r| == |j.title| + 4 + |CompanyName(j)|
    ensures r[..|j.title|] == j.title
    ensures r[|j.title|..|j.title| + 4] == " at "
    ensures r[|j.title| + 4..] == CompanyName(j)
  {
    j.title + " at " + CompanyName(j)
  }

  // ---------------------------------------------------------------- display lookups

  /** The shape of `get_job_type_display` and its siblings: the label of a known code,
      otherwise the code title-cased. */
  function ChoiceLabel(table: seq<Choice>, code: string): (r: string)
    ensures HasCode(table, code) ==> exists i :: 0 <= i < |table| && table[i] == (code, r)
    ensures !HasCode(table, code) ==> r == TitleCase(code)
  {
    match Lookup(table, code)
    case Some(text) => text
    case None => TitleCase(code)
  }

  /** With unique codes, a known code shows exactly its own label. */
  lemma ChoiceLabelOfKnownCode(table: seq<Choice>, i: nat)
    requires UniqueCodes(table) && i < |table|
    ensures ChoiceLabel(table, table[i].0) == table[i].1
  {
    assert HasCode(table, table[i].0);
  }

  lemma ChoiceTablesHaveUniqueCodes()
    ensures UniqueCodes(JobTypes) && UniqueCodes(LocationTypes)
    ensures UniqueCodes(ExperienceLevels) && UniqueCodes(CurrencyChoices)
  {
  }

  function JobTypeDisplay(j: Job): (r: string)
    ensures HasCode(JobTypes, j.jobType) ==> exists i :: 0 <= i < |JobTypes| && JobTypes[i] == (j.jobType, r)
    ensures !HasCode(JobTypes, j.jobType) ==> r == TitleCase(j.jobType)
  {
    ChoiceLabel(JobTypes, j.jobType)
  }

  function LocationTypeDisplay(j: Job): (r: string)
    ensures HasCode(LocationTypes, j.locationType) ==> exists i :: 0 <= i < |LocationTypes| && LocationTypes[i] == (j.locationType, r)
    ensures !HasCode(LocationTypes, j.locationType) ==> r == TitleCase(j.locationType)
  {
    ChoiceLabel(LocationTypes, j.locationType)
  }

  function ExperienceLevelDisplay(j: Job): (r: string)
    ensures HasCode(ExperienceLevels, j.experienceLevel) ==> exists i :: 0 <= i < |ExperienceLevels| && ExperienceLevels[i] == (j.experienceLevel, r)
    ensures !HasCode(ExperienceLevels, j.experienceLevel) ==> r == TitleCase(j.experienceLevel)
  {
    ChoiceLabel(ExperienceLevels, j.experienceLevel)
  }

  // ---------------------------------------------------------------- currency and salary

  /** `get_currency_symbol`: the symbol of a known currency code, an unknown code unchanged. */
  function CurrencySymbol(code: string): (r: string)
    ensures code in CurrencySymbols ==> r == CurrencySymbols[code]
    ensures code !in CurrencySymbols ==> r == code
  {
    if code in CurrencySymbols then CurrencySymbols[code] else code
  }

  /** The symbol table covers exactly the currency choices, and each choice's label ends with
      its symbol in parentheses, so the two tables agree. */
  lemma CurrencyTablesAgree()
    ensures CurrencySymbols.Keys == set i | 0 <= i < |CurrencyChoices| :: CurrencyChoices[i].0
    ensures forall i :: 0 <= i < |CurrencyChoices| ==>
      var name, sym := CurrencyChoices[i].1, CurrencySymbol(CurrencyChoices[i].0);
      |sym| + 2 <= |name| && name[|name| - |sym| - 2..] == "(" + sym + ")"
  {
    var codes := set i | 0 <= i < |CurrencyChoices| :: CurrencyChoices[i].0;
    assert CurrencyChoices[0].0 in codes && CurrencyChoices[1].0 in codes && CurrencyChoices[2].0 in codes;
    assert CurrencyChoices[3].0 in codes && CurrencyChoices[4].0 in codes && CurrencyChoices[5].0 in codes;
  }

  /** `get_salary_display`: both bounds with the currency symbol and thousands separators when
      both are truthy (present and non-zero), otherwise "Salary not specified". */
  function SalaryDisplay(j: Job): (r: string)
  {
    if Truthy(j.salaryMin) && Truthy(j.salaryMax) then
      var symbol := CurrencySymbol(j.salaryCurrency);
      symbol + Grouped(j.salaryMin.value) + " - " + symbol + Grouped(j.salaryMax.value)
    else SalaryNotSpecified
  }

  /** The fallback text is shown exactly when one of the bounds is absent or zero. */
  lemma SalaryNotSpecifiedIff(j: Job)
    ensures SalaryDisplay(j) == SalaryNotSpecified <==> !(Truthy(j.salaryMin) && Truthy(j.salaryMax))
  {
    if Truthy(j.salaryMin) && Truthy(j.salaryMax) {
      var r := SalaryDisplay(j);
      var g := Grouped(j.salaryMax.value);
      GroupedEndsWithDigit(j.salaryMax.value);
      assert r[|r| - 1] == g[|g| - 1];
      assert SalaryNotSpecified[|SalaryNotSpecified| - 1] == 'd';
    }
  }

  // ---------------------------------------------------------------- reading the salary text back

  predicate IsNumeralChar(c: char) { IsDigit(c) || c == ',' }

  /** Splits `s` into its longest prefix of digits and commas and the rest. */
  function SplitNumeral(s: string): (p: (string, string))
    ensures p.0 + p.1 == s
    ensures forall i :: 0 <= i < |p.0| ==> IsNumeralChar(p.0[i])
    ensures p.1 == [] || !IsNumeralChar(p.1[0])
  {
    if s == [] || !IsNumeralChar(s[0]) then ([], s)
    else
      var (a, b) := SplitNumeral(s[1..]);
      assert [s[0]] + a + b == s;
      ([s[0]] + a, b)
  }

  lemma {:induction false} StripNumeralIsDigits(s: string)
    requires forall i :: 0 <= i < |s| ==> IsNumeralChar(s[i])
    ensures AllDigits(StripCommas(s))
  {
    if s != [] { StripNumeralIsDigits(s[1..]); }
  }

  /** The value of a numeral written with thousands separators. */
  function NumeralValue(s: string): nat
    requires forall i :: 0 <= i < |s| ==> IsNumeralChar(s[i])
  {
    StripNumeralIsDigits(s);
    ParseDecimal(StripCommas(s))
  }

  /** Reads "<sym><a> - <sym><b>" back into the two numbers. */
  function ParseSalaryDisplay(s: string, symbol: string): Option<(nat, nat)>
  {
    if !StartsWith(s, symbol) then None
    else
      var (a, rest) := SplitNumeral(s[|symbol|..]);
      var sep := " - " + symbol;
      if a == [] || !StartsWith(rest, sep) then None
      else
        var (b, tail) := SplitNumeral(rest[|sep|..]);
        if b == [] || tail != [] then None
        else Some((NumeralValue(a), NumeralValue(b)))
  }

  lemma {:induction false} SplitNumeralOf(x: string, t: string)
    requires forall i :: 0 <= i < |x| ==> IsNumeralChar(x[i])
    requires t == [] || !IsNumeralChar(t[0])
    ensures SplitNumeral(x + t) == (x, t)
  {
    if x == [] {
      assert x + t == t;
    } else {
      assert (x + t)[1..] == x[1..] + t;
      SplitNumeralOf(x[1..], t);
      assert x == [x[0]] + x[1..];
    }
  }

  /** The salary text round-trips: reading it back with the currency's symbol gives the two
      stored bounds. */
  lemma SalaryDisplayRoundTrip(j: Job)
    requires Truthy(j.salaryMin) && Truthy(j.salaryMax)
    ensures ParseSalaryDisplay(SalaryDisplay(j), CurrencySymbol(j.salaryCurrency))
            == Some((j.salaryMin.value, j.salaryMax.value))
  {
    var symbol := CurrencySymbol(j.salaryCurrency);
    var lo, hi := j.salaryMin.value, j.salaryMax.value;
    var a, b := Grouped(lo), Grouped(hi);
    var sep := " - " + symbol;
    var s := SalaryDisplay(j);
    assert s == symbol + (a + (sep + b));
    GroupedLayout(lo);
    GroupedLayout(hi);
    assert s[|symbol|..] == a + (sep + b);
    SplitNumeralOf(a, sep + b);
    assert (sep + b)[|sep|..] == b + [];
    SplitNumeralOf(b, []);
    GroupedRoundTrip(lo);
    GroupedRoundTrip(hi);
  }
}

=== FILE: job_views.dfy ===
/** The public job pages (jobs/views.py): the filtered, paginated list of active postings with
    its counters, and the detail page with the visitor's application flag and up to three
    similar postings for job seekers. */
module JobViews {
  import opened Wrappers
  import opened Queries
  import opened Users
  import opened JobModel
  import opened JobFilters
  import opened ApplicationModel
  import opened Profiles

  /** `JobListView.paginate_by`. */
  const JobsPerPage: nat := 12

  /** The list view's rows before pagination: active jobs matching the query, newest first. */
  function ListedJobs(p: FilterParams, knownSkills: set<nat>, jobs: seq<Job>): (r: seq<Job>)
    ensures forall j :: j in r <==> ValidParams(p, knownSkills) && j in jobs && j.isActive && Matches(p, j)
    ensures forall j :: multiset(r)[j] == if ValidParams(p, knownSkills) && j.isActive && Matches(p, j) then multiset(jobs)[j] else 0
    ensures forall i, k :: 0 <= i < k < |r| ==> r[i].createdAt >= r[k].createdAt
    ensures |r| <= |ActiveJobs(jobs)|
  {
    var active := ActiveJobs(jobs);
    var filtered := FilterJobs(p, knownSkills, active);
    var r := InPostedOrder(filtered);
    assert |r| == |multiset(r)| == |multiset(filtered)| == |filtered|;
    r
  }

  /** The job ids the user has applied to, in the applications' default order. */
  function AppliedJobIds(apps: seq<Application>, user: nat): (r: seq<nat>)
    ensures forall id :: id in r <==> HasApplied(apps, id, user)
  {
    var own := Keep(apps, (a: Application) => a.applicant == user);
    var mine := InDefaultOrder(own);
    PermutationSameMembers(mine, own);
    JobIdsOf(mine)
  }

  /** The `job_id` column of the rows, in order. */
  function JobIdsOf(rows: seq<Application>): (r: seq<nat>)
    ensures forall id :: id in r <==> exists a :: a in rows && a.job == id
  {
    if rows == [] then []
    else
      assert rows == [rows[0]] + rows[1..];
      [rows[0].job] + JobIdsOf(rows[1..])
  }

  /** What the list template receives. */
  datatype JobListContext = JobListContext(page: seq<Job>, totalJobs: nat, appliedJobs: Option<seq<nat>>)

  /** `JobListView` for page `number`; None is the 404 for a page that does not exist.
      `total_jobs` counts every active job, whatever the query; `applied_jobs` is present
      exactly for signed-in visitors. */
  function JobList(p: FilterParams, knownSkills: set<nat>, jobs: seq<Job>, apps: seq<Application>,
                   v: Visitor, number: int): (r: Option<JobListContext>)
    ensures r.Some? <==> 1 <= number <= PageCount(|ListedJobs(p, knownSkills, jobs)|, JobsPerPage)
    ensures r.Some? ==> Page(ListedJobs(p, knownSkills, jobs), number, JobsPerPage) == Some(r.value.page)
    ensures r.Some? ==> |r.value.page| <= JobsPerPage
    ensures r.Some? ==> r.value.totalJobs == |ActiveJobs(jobs)| >= |ListedJobs(p, knownSkills, jobs)|
    ensures r.Some? ==> (r.value.appliedJobs.Some? <==> v.Member?)
    ensures r.Some? && v.Member? ==> r.value.appliedJobs.value == AppliedJobIds(apps, v.user.id)
  {
    var listed := ListedJobs(p, knownSkills, jobs);
    match Page(listed, number, JobsPerPage)
    case None => None
    case Some(page) =>
      var applied := if v.Member? then Some(AppliedJobIds(apps, v.user.id)) else None;
      Some(JobListContext(page, |ActiveJobs(jobs)|, applied))
  }

  /** The first page of an unfiltered list shows the twelve newest active jobs (or all of them
      when there are fewer). */
  lemma FirstPageIsNewestActive(knownSkills: set<nat>, jobs: seq<Job>, v: Visitor, apps: seq<Application>)
    ensures JobList(NoFilter, knownSkills, jobs, apps, v, 1).Some?
    ensures JobList(NoFilter, knownSkills, jobs, apps, v, 1).value.page == Take(ListedJobs(NoFilter, knownSkills, jobs), JobsPerPage)
    ensures forall j :: j in JobList(NoFilter, knownSkills, jobs, apps, v, 1).value.page ==> j in jobs && j.isActive
  {
    PageCountPositive(|ListedJobs(NoFilter, knownSkills, jobs)|);
    var listed := ListedJobs(NoFilter, knownSkills, jobs);
    var page := JobList(NoFilter, knownSkills, jobs, apps, v, 1).value.page;
    forall j | j in page ensures j in jobs && j.isActive {
      assert page == listed[..|page|];
      assert j in listed;
    }
  }

  lemma PageCountPositive(count: nat)
    ensures PageCount(count, JobsPerPage) >= 1
  {
  }

  // ---------------------------------------------------------------- detail page

  /** A posting recommended next to `current`: active, another posting, and sharing at least
      one skill with the visitor's profile. */
  predicate SimilarTo(j: Job, current: Job, skills: set<nat>) {
    j.isActive && j.requiredSkills * skills != {} && j.id != current.id
  }

  /** The `similar_jobs` query: the three newest postings similar to `current`. */
  function SimilarJobs(jobs: seq<Job>, current: Job, skills: set<nat>): (r: seq<Job>)
    ensures |r| <= 3
    ensures forall j :: j in r ==> j in jobs && SimilarTo(j, current, skills)
    ensures forall i, k :: 0 <= i < k < |r| ==> r[i].createdAt >= r[k].createdAt
    ensures |r| < 3 ==> forall j :: j in jobs && SimilarTo(j, current, skills) ==> j in r
    ensures forall j, k :: j in jobs && SimilarTo(j, current, skills) && j !in r && k in r ==> k.createdAt >= j.createdAt
    ensures UniqueJobIds(jobs) ==> NoDuplicates(r)
  {
    var candidates := Keep(jobs, (j: Job) => SimilarTo(j, current, skills));
    var sorted := InPostedOrder(candidates);
    PermutationSameMembers(sorted, candidates);
    assert SortedBy(sorted, NewestPostedFirst);
    TakeKeepsFirst(sorted, 3, NewestPostedFirst);
    assert UniqueJobIds(jobs) ==> NoDuplicates(Take(sorted, 3)) by {
      if UniqueJobIds(jobs) {
        UniqueIdsNoDuplicates(jobs);
        KeepNoDuplicates(jobs, (j: Job) => SimilarTo(j, current, skills));
        PermutationKeepsNoDuplicates(candidates, sorted);
        TakeNoDuplicates(sorted, 3);
      }
    }
    Take(sorted, 3)
  }

  lemma UniqueIdsNoDuplicates(jobs: seq<Job>)
    requires UniqueJobIds(jobs)
    ensures NoDuplicates(jobs)
  {
  }

  /** A job seeker whose profile lists no skills is recommended nothing. */
  lemma NoSkillsNoRecommendations(jobs: seq<Job>, current: Job)
    ensures SimilarJobs(jobs, current, {}) == []
  {
  }

  datatype JobDetailPage =
    | NotFound                      // 404: no active job with that id
    | ProfileMissing                // a job seeker without a profile row: the lookup raises
    | Detail(job: Job, userHasApplied: bool, similarJobs: Option<seq<Job>>)

  /** `JobDetailView` for job `id`. `similar_jobs` is computed for job seekers only. */
  function JobDetail(jobs: seq<Job>, id: nat, apps: seq<Application>, profiles: seq<Profile>, v: Visitor): (r: JobDetailPage)
    ensures r.NotFound? <==> ActiveJob(jobs, id).None?
    ensures r.ProfileMissing? <==> ActiveJob(jobs, id).Some? && IsJobSeeker(v) && ProfileOf(profiles, v.user.id).None?
    ensures r.Detail? ==> r.job in jobs && r.job.isActive && r.job.id == id
    ensures r.Detail? ==> (r.userHasApplied <==> v.Member? && HasApplied(apps, id, v.user.id))
    ensures r.Detail? ==> (r.similarJobs.Some? <==> IsJobSeeker(v))
    ensures r.Detail? && IsJobSeeker(v) ==>
              r.similarJobs.value == SimilarJobs(jobs, r.job, ProfileOf(profiles, v.user.id).value.skills)
  {
    match ActiveJob(jobs, id)
    case None => NotFound
    case Some(job) =>
      if v.Anonymous? then Detail(job, false, None)
      else
        var applied := HasApplied(apps, id, v.user.id);
        if !IsJobSeeker(v) then Detail(job, applied, None)
        else match ProfileOf(profiles, v.user.id)
          case None => ProfileMissing
          case Some(profile) => Detail(job, applied, Some(SimilarJobs(jobs, job, profile.skills)))
  }

  /** The detail page's "already applied" flag agrees with the list page's `applied_jobs`. */
  lemma AppliedFlagAgreesWithList(jobs: seq<Job>, id: nat, apps: seq<Application>, profiles: seq<Profile>,
                                  u: User, p: FilterParams, knownSkills: set<nat>, number: int)
    requires JobDetail(jobs, id, apps, profiles, Member(u)).Detail?
    requires JobList(p, knownSkills, jobs, apps, Member(u), number).Some?
    ensures JobDetail(jobs, id, apps, profiles, Member(u)).userHasApplied
            <==> id in JobList(p, knownSkills, jobs, apps, Member(u), number).value.appliedJobs.value
  {
  }

  /** A recommended posting is never the posting on display. */
  lemma RecommendationsExcludeCurrent(jobs: seq<Job>, id: nat, apps: seq<Application>, profiles: seq<Profile>, v: Visitor)
    requires JobDetail(jobs, id, apps, profiles, v).Detail?
    requires JobDetail(jobs, id, apps, profiles, v).similarJobs.Some?
    ensures forall j :: j in JobDetail(jobs, id, apps, profiles, v).similarJobs.value ==> j.id != id && j.isActive
  {
  }
}

=== FILE: middleware.dfy ===
/** The profile-completion gate (users/middleware.py): a signed-in user whose profile is not
    complete is sent to the completion page unless the path is exempt. The six exempt URLs that
    the middleware obtains by reversing route names are a parameter here. */
module Middleware {
  import opened Text
  import opened Users

  /** The two literal prefixes of the exempt list. */
  const FixedExempt: seq<string> := ["/admin/", "/accounts/"]

  /** The exempt list: the reversed URLs followed by the two literal prefixes. */
  function ExemptUrls(reversed: seq<string>): (r: seq<string>)
    ensures |r| == |reversed| + 2
    ensures forall u :: u in r <==> u in reversed || u == "/admin/" || u == "/accounts/"
  {
    reversed + FixedExempt
  }

  /** `any(path.startswith(url) for url in exempt)`. */
  function StartsWithAny(path: string, exempt: seq<string>): (r: bool)
    ensures r <==> exists u :: u in exempt && StartsWith(path, u)
  {
    if exempt == [] then false
    else
      assert exempt == [exempt[0]] + exempt[1..];
      StartsWith(path, exempt[0]) || StartsWithAny(path, exempt[1..])
  }

  /** The condition of `__call__`. */
  predicate ShouldRedirect(v: Visitor, path: string, reversed: seq<string>) {
    && v.Member?
    && !v.user.profileCompleted
    && path !in ExemptUrls(reversed)
    && !StartsWithAny(path, ExemptUrls(reversed))
  }

  /** The exact-membership test adds nothing: a listed path starts with itself. */
  lemma MembershipSubsumedByPrefix(path: string, exempt: seq<string>)
    ensures path in exempt ==> StartsWithAny(path, exempt)
  {
    if path in exempt {
      assert StartsWith(path, path);
    }
  }

  /** The redirect happens exactly for a member with an incomplete profile on a path that starts
      with no exempt URL; anonymous visitors, completed users and any path under /admin/ or
      /accounts/ pass. */
  lemma RedirectDecision(v: Visitor, path: string, reversed: seq<string>)
    ensures ShouldRedirect(v, path, reversed) <==>
              v.Member? && !v.user.profileCompleted && !exists u :: u in ExemptUrls(reversed) && StartsWith(path, u)
    ensures v.Anonymous? ==> !ShouldRedirect(v, path, reversed)
    ensures v.Member? && v.user.profileCompleted ==> !ShouldRedirect(v, path, reversed)
    ensures StartsWith(path, "/admin/") || StartsWith(path, "/accounts/") ==> !ShouldRedirect(v, path, reversed)
  {
    MembershipSubsumedByPrefix(path, ExemptUrls(reversed));
    assert "/admin/" in ExemptUrls(reversed) && "/accounts/" in ExemptUrls(reversed);
  }

  datatype Outcome<R> = RedirectToCompletion | Passed(response: R)

  /** `__call__` around the downstream handler's response. */
  function Gate<R>(v: Visitor, path: string, reversed: seq<string>, downstream: R): (r: Outcome<R>)
    ensures r.RedirectToCompletion? <==> ShouldRedirect(v, path, reversed)
    ensures r.Passed? ==> r.response == downstream
  {
    if ShouldRedirect(v, path, reversed) then RedirectToCompletion else Passed(downstream)
  }
}

=== FILE: profiles.dfy ===
/** The skill catalogue and the profile record (profiles/models.py): skill names are unique
    and listed by name; a profile is complete once headline, bio and location are filled in
    and at least one skill is linked. */
module Profiles {
  import opened Wrappers
  import opened Choices
  import opened Text
  import opened Queries

  datatype Skill = Skill(id: nat, name: string, category: string)

  /** The `unique=True` constraint on `Skill.name`. */
  predicate UniqueSkillNames(catalogue: seq<Skill>) {
    forall i, j :: 0 <= i < j < |catalogue| ==> catalogue[i].name != catalogue[j].name
  }

  /** `Meta.ordering = ['name']`, with names compared code point by code point. */
  function ByName(a: Skill, b: Skill): bool {
    LexLe(a.name, b.name)
  }

  lemma ByNameIsTotalPreorder()
    ensures TotalPreorder(ByName)
  {
    forall a: Skill, b: Skill ensures ByName(a, b) || ByName(b, a) {
      LexLeTotal(a.name, b.name);
    }
    forall a: Skill, b: Skill, c: Skill | ByName(a, b) && ByName(b, c) ensures ByName(a, c) {
      LexLeTransitive(a.name, b.name, c.name);
    }
  }

  /** The catalogue in its default order. */
  function SkillsByName(catalogue: seq<Skill>): (r: seq<Skill>)
    ensures multiset(r) == multiset(catalogue)
    ensures SortedBy(r, ByName)
  {
    ByNameIsTotalPreorder();
    SortBy(catalogue, ByName)
  }

  /** With unique names no two catalogue rows are equal. */
  lemma UniqueNamesNoDuplicates(catalogue: seq<Skill>)
    requires UniqueSkillNames(catalogue)
    ensures NoDuplicates(catalogue)
  {
  }

  /** Listing the catalogue gives every skill once, and with unique names the names strictly
      increase. */
  lemma SkillsByNameStrictlyIncreasing(catalogue: seq<Skill>)
    requires UniqueSkillNames(catalogue)
    ensures forall i, j :: 0 <= i < j < |SkillsByName(catalogue)| ==>
      LexLe(SkillsByName(catalogue)[i].name, SkillsByName(catalogue)[j].name)
      && SkillsByName(catalogue)[i].name != SkillsByName(catalogue)[j].name
  {
    var r := SkillsByName(catalogue);
    ByNameIsTotalPreorder();
    UniqueNamesNoDuplicates(catalogue);
    PermutationKeepsNoDuplicates(catalogue, r);
    forall i, j | 0 <= i < j < |r| ensures r[i].name != r[j].name {
      assert r[i] in multiset(catalogue) && r[j] in multiset(catalogue);
      var a :| 0 <= a < |catalogue| && catalogue[a] == r[i];
      var b :| 0 <= b < |catalogue| && catalogue[b] == r[j];
      assert a != b;
    }
  }

  // ---------------------------------------------------------------- profiles

  const VisibilityChoices: seq<Choice> := [("public", "Public"), ("private", "Private")]

  datatype Profile = Profile(
    user: nat,
    headline: string,
    bio: string,
    skills: set<nat>,
    location: string,
    website: string,
    linkedin: string,
    github: string,
    resume: string,
    profilePicture: string,
    currentPosition: string,
    yearsExperience: Option<nat>,
    education: string,
    certifications: string,
    visibility: string,
    openToWork: bool,
    preferredSalaryMin: Option<nat>,
    preferredSalaryMax: Option<nat>)

  /** A profile row as `get_or_create` makes it: blank fields, public, open to work. */
  function NewProfile(user: nat): (p: Profile)
    ensures p.user == user && p.visibility == "public" && p.openToWork
    ensures p.headline == "" && p.bio == "" && p.location == "" && p.skills == {}
  {
    Profile(user, "", "", {}, "", "", "", "", "", "", "", None, "", "", "public", true, None, None)
  }

  /** The default visibility is one of the two visibility codes. */
  lemma NewProfileVisibilityIsChoice(user: nat)
    ensures HasCode(VisibilityChoices, NewProfile(user).visibility)
    ensures forall code :: HasCode(VisibilityChoices, code) <==> code == "public" || code == "private"
  {
    assert VisibilityChoices[0].0 == "public";
    forall code | HasCode(VisibilityChoices, code) ensures code == "public" || code == "private" {
      var i :| 0 <= i < |VisibilityChoices| && VisibilityChoices[i].0 == code;
      assert i == 0 || i == 1;
    }
    assert VisibilityChoices[1].0 == "private";
  }

  /** `__str__`: "<username>'s Profile". */
  function ProfileStr(username: string): (r: string)
    ensures |r| == |username| + 10
    ensures r[..|username|] == username && r[|username|..] == "'s Profile"
  {
    username + "'s Profile"
  }

  /** `is_complete`: headline, bio and location all non-empty and at least one skill. */
  predicate IsComplete(p: Profile) {
    p.headline != "" && p.bio != "" && p.location != "" && p.skills != {}
  }

  /** A freshly created profile is never complete. */
  lemma NewProfileIncomplete(user: nat)
    ensures !IsComplete(NewProfile(user))
  {
  }

  /** Completeness looks only at headline, bio, location and skills: two profiles that agree on
      those four agree on completeness, whatever their other fields. */
  lemma CompletenessIgnoresOtherFields(p: Profile, q: Profile)
    requires p.headline == q.headline && p.bio == q.bio && p.location == q.location && p.skills == q.skills
    ensures IsComplete(p) == IsComplete(q)
  {
  }

  /** `user.profile`: the profile of a user, if one exists. */
  function ProfileOf(profiles: seq<Profile>, user: nat): (r: Option<Profile>)
    ensures r.Some? <==> exists p :: p in profiles && p.user == user
    ensures r.Some? ==> r.value in profiles && r.value.user == user
  {
    if profiles == [] then None
    else if profiles[0].user == user then Some(profiles[0])
    else
      var r := ProfileOf(profiles[1..], user);
      assert profiles == [profiles[0]] + profiles[1..];
      r
  }

  /** The one-to-one link from profile to user: no user has two profiles. */
  predicate OneProfilePerUser(profiles: seq<Profile>) {
    forall i, j :: 0 <= i < j < |profiles| ==> profiles[i].user != profiles[j].user
  }
}

=== FILE: queries.dfy ===
/** Query operations over rows held in a sequence, the model's stand-in for the database:
    `filter` (Keep), `order_by` / `Meta.ordering` (SortBy, where `le(a, b)` means "a may come
    before b"), slicing `[:n]` (Take) and pagination (Page). */
module Queries {
  import opened Wrappers


  ghost predicate TotalPreorder<T(!new)>(le: (T, T) -> bool) {
    && (forall a, b :: le(a, b) || le(b, a))
    && (forall a, b, c :: le(a, b) && le(b, c) ==> le(a, c))
  }

  ghost predicate SortedBy<T>(s: seq<T>, le: (T, T) -> bool) {
    forall i, j :: 0 <= i < j < |s| ==> le(s[i], s[j])
  }

  /** Inserts `x` before the first element it may precede. */
  function Insert<T>(x: T, s: seq<T>, le: (T, T) -> bool): (r: seq<T>)
    ensures multiset(r) == multiset(s) + multiset{x}
    ensures |r| == |s| + 1
  {
    if s == [] then [x]
    else if le(x, s[0]) then [x] + s
    else
      assert s == [s[0]] + s[1..];
      [s[0]] + Insert(x, s[1..], le)
  }

  lemma {:induction false} InsertSorted<T(!new)>(x: T, s: seq<T>, le: (T, T) -> bool)
    requires TotalPreorder(le) && SortedBy(s, le)
    ensures SortedBy(Insert(x, s, le), le)
  {
    if s != [] && !le(x, s[0]) {
      var tail := Insert(x, s[1..], le);
      InsertSorted(x, s[1..], le);
      assert s == [s[0]] + s[1..];
      forall k | 0 <= k < |tail| ensures le(s[0], tail[k]) {
        assert tail[k] in multiset(tail);
        assert tail[k] == x || tail[k] in multiset(s[1..]);
        if tail[k] != x {
          var m :| 0 <= m < |s[1..]| && s[1..][m] == tail[k];
          assert s[m + 1] == tail[k];
        }
      }
    }
  }

  /** Insertion sort; the result is a permutation of `s` ordered by `le`. */
  function SortBy<T(!new)>(s: seq<T>, le: (T, T) -> bool): (r: seq<T>)
    ensures multiset(r) == multiset(s)
    ensures TotalPreorder(le) ==> SortedBy(r, le)
  {
    if s == [] then []
    else
      var rest := SortBy(s[1..], le);
      assert s == [s[0]] + s[1..];
      assert TotalPreorder(le) ==> SortedBy(Insert(s[0], rest, le), le) by {
        if TotalPreorder(le) { InsertSorted(s[0], rest, le); }
      }
      Insert(s[0], rest, le)
  }

  /** `filter(...)`: the rows that satisfy `keep`, in their original order. */
  function Keep<T(!new, ==)>(s: seq<T>, keep: T -> bool): (r: seq<T>)
    ensures forall x :: multiset(r)[x] == if keep(x) then multiset(s)[x] else 0
    ensures forall x :: x in r <==> x in s && keep(x)
    ensures |r| <= |s|
  {
    if s == [] then []
    else
      var rest := Keep(s[1..], keep);
      assert s == [s[0]] + s[1..];
      if keep(s[0]) then [s[0]] + rest else rest
  }

  /** A filter that every row passes keeps the sequence as it is. */
  lemma {:induction false} KeepAll<T(!new)>(s: seq<T>, keep: T -> bool)
    requires forall x :: x in s ==> keep(x)
    ensures Keep(s, keep) == s
  {
    if s != [] {
      KeepAll(s[1..], keep);
    }
  }

  /** Keeping rows never duplicates one: a sequence without repeated rows stays so. */
  lemma {:induction false} KeepNoDuplicates<T(!new)>(s: seq<T>, keep: T -> bool)
    requires NoDuplicates(s)
    ensures NoDuplicates(Keep(s, keep))
  {
    if s != [] {
      assert s == [s[0]] + s[1..];
      assert NoDuplicates(s[1..]);
      KeepNoDuplicates(s[1..], keep);
      assert s[0] !in s[1..];
    }
  }

  predicate NoDuplicates<T(==)>(s: seq<T>) {
    forall i, j :: 0 <= i < j < |s| ==> s[i] != s[j]
  }

  /** Two orderings of the same rows have the same members. */
  lemma PermutationSameMembers<T>(a: seq<T>, b: seq<T>)
    requires multiset(a) == multiset(b)
    ensures forall x :: x in a <==> x in b
  {
    forall x ensures x in a <==> x in b {
      assert x in a <==> x in multiset(a);
      assert x in b <==> x in multiset(b);
    }
  }

  /** `[:n]`: the first `n` rows, or all of them when there are fewer. */
  function Take<T>(s: seq<T>, n: nat): (r: seq<T>)
    ensures |r| == if |s| < n then |s| else n
    ensures r == s[..|r|]
  {
    if |s| <= n then s else s[..n]
  }

  /** The first `n` rows of a sorted sequence precede every row left out. */
  lemma TakeKeepsFirst<T>(s: seq<T>, n: nat, le: (T, T) -> bool)
    requires SortedBy(s, le)
    ensures forall x, y :: x in s && x !in Take(s, n) && y in Take(s, n) ==> le(y, x)
  {
    var r := Take(s, n);
    forall x, y | x in s && x !in r && y in r ensures le(y, x) {
      var m :| 0 <= m < |s| && s[m] == x;
      var i :| 0 <= i < |r| && r[i] == y;
      assert m >= |r|;
    }
  }

  /** A prefix of a sequence without repeated rows has none either. */
  lemma TakeNoDuplicates<T>(s: seq<T>, n: nat)
    requires NoDuplicates(s)
    ensures NoDuplicates(Take(s, n))
  {
    var r := Take(s, n);
    assert forall i, k :: 0 <= i < k < |r| ==> r[i] == s[i] && r[k] == s[k];
  }

  /** The number of pages of `count` rows shown `size` to a page; an empty list still has one
      (empty) page. */
  function PageCount(count: nat, size: nat): (n: nat)
    requires size > 0
    ensures n >= 1
    ensures count > 0 ==> (n - 1) * size < count <= n * size
  {
    if count == 0 then 1 else (count - 1) / size + 1
  }

  /** Page `number` (counting from 1) of `s`, or None (a 404) when there is no such page. */
  function Page<T>(s: seq<T>, number: int, size: nat): (r: Option<seq<T>>)
    requires size > 0
    ensures r.Some? <==> 1 <= number <= PageCount(|s|, size)
    ensures r.Some? ==> |r.value| <= size
    ensures r.Some? ==> (number - 1) * size + |r.value| <= |s|
    ensures r.Some? ==> r.value == s[(number - 1) * size..(number - 1) * size + |r.value|]
    ensures r.Some? && number < PageCount(|s|, size) ==> |r.value| == size
  {
    if 1 <= number <= PageCount(|s|, size) then
      PageBounds(|s|, size, number);
      var start := (number - 1) * size;
      var end := if |s| < start + size then |s| else start + size;
      Some(s[start..end])
    else None
  }

  lemma MulMonotone(a: nat, b: nat, c: nat)
    requires a <= b
    ensures a * c <= b * c
  {
  }

  /** Every existing page starts inside the list, and every page before the last is full. */
  lemma PageBounds(count: nat, size: nat, number: int)
    requires size > 0 && 1 <= number <= PageCount(count, size)
    ensures (number - 1) * size <= count
    ensures number < PageCount(count, size) ==> number * size <= count
  {
    if count > 0 {
      var q := (count - 1) / size;
      assert q * size <= count - 1;
      MulMonotone(number - 1, q, size);
      if number < PageCount(count, size) {
        MulMonotone(number, q, size);
      }
    }
  }

  /** A row that occurs at two positions is counted at least twice. */
  lemma TwoOccurrences<T>(s: seq<T>, i: nat, j: nat)
    requires i < j < |s| && s[i] == s[j]
    ensures multiset(s)[s[i]] >= 2
  {
    assert s == s[..j] + [s[j]] + s[j + 1..];
    assert s[i] in s[..j];
  }

  lemma {:induction false} NoDuplicatesCountsOnce<T>(s: seq<T>)
    requires NoDuplicates(s)
    ensures forall x :: multiset(s)[x] <= 1
  {
    if s != [] {
      var k := |s| - 1;
      assert s == s[..k] + [s[k]];
      NoDuplicatesCountsOnce(s[..k]);
      assert s[k] !in s[..k];
    }
  }

  /** Reordering rows never creates a duplicate. */
  lemma PermutationKeepsNoDuplicates<T>(s: seq<T>, r: seq<T>)
    requires NoDuplicates(s) && multiset(r) == multiset(s)
    ensures NoDuplicates(r)
  {
    NoDuplicatesCountsOnce(s);
    forall i, j | 0 <= i < j < |r| ensures r[i] != r[j] {
      if r[i] == r[j] {
        TwoOccurrences(r, i, j);
        assert false;
      }
    }
  }
}

=== FILE: signup.dfy ===
/** The signup form (users/forms.py): the role choice, the company name a recruiter must give,
    and the company that a recruiter's signup finds or creates by its unique name. */
module Signup {
  import opened Wrappers
  import opened Text
  import opened Choices
  import opened Users
  import opened JobModel

  /** The submitted fields this form adds to the account signup, plus the email address, as
      typed: the text fields are stripped of surrounding whitespace when the form cleans them. */
  datatype SignupData = SignupData(email: string, userType: string, companyName: string)

  /** `company_name = CharField(max_length=200)`. */
  const CompanyNameMaxLength: nat := 200

  datatype SignupError =
    | EmailRequired     // the email field is forced to required
    | InvalidChoice     // user_type outside the role table
    | CompanyTooLong    // the stripped company name is over its max_length
    | CompanyRequired   // "Company name is required for recruiters."

  /** The validation errors of a submission. A text field is stripped, then checked against its
      length limit; `clean` runs even when a field failed, sees the role only when it is a valid
      choice, and sees no company name when that field failed its limit. */
  function SignupErrors(d: SignupData): (r: set<SignupError>)
    ensures EmailRequired in r <==> Strip(d.email) == ""
    ensures InvalidChoice in r <==> d.userType != JobSeeker && d.userType != Recruiter
    ensures CompanyTooLong in r <==> |Strip(d.companyName)| > CompanyNameMaxLength
    ensures CompanyRequired in r <==>
              d.userType == Recruiter && (Strip(d.companyName) == "" || |Strip(d.companyName)| > CompanyNameMaxLength)
  {
    UserTypeCodes(d.userType);
    var company := Strip(d.companyName);
    var tooLong := |company| > CompanyNameMaxLength;
    (if Strip(d.email) == "" then {EmailRequired} else {})
    + (if HasCode(UserTypeChoices, d.userType) then {} else {InvalidChoice})
    + (if tooLong then {CompanyTooLong} else {})
    + (if d.userType == Recruiter && (company == "" || tooLong) then {CompanyRequired} else {})
  }

  /** A job seeker never needs a company name, and one typed within the length limit changes
      nothing about whether the signup is accepted. */
  lemma SeekerNeedsNoCompany(email: string, companyName: string)
    ensures CompanyRequired !in SignupErrors(SignupData(email, JobSeeker, companyName))
    ensures |Strip(companyName)| <= CompanyNameMaxLength ==>
              SignupErrors(SignupData(email, JobSeeker, companyName)) == SignupErrors(SignupData(email, JobSeeker, ""))
  {
  }

  /** An accepted submission has an email and a role, its company name is within the limit,
      and a recruiter's is not blank. */
  lemma AcceptedSignup(d: SignupData)
    requires SignupErrors(d) == {}
    ensures Strip(d.email) != "" && (d.userType == JobSeeker || d.userType == Recruiter)
    ensures |Strip(d.companyName)| <= CompanyNameMaxLength
    ensures d.userType == Recruiter ==> Strip(d.companyName) != ""
  {
    assert EmailRequired !in SignupErrors(d) && InvalidChoice !in SignupErrors(d);
    assert CompanyTooLong !in SignupErrors(d) && CompanyRequired !in SignupErrors(d);
  }

  /** Company names are unique (the `unique=True` column). */
  predicate UniqueCompanyNames(companies: seq<Company>) {
    forall i, k :: 0 <= i < k < |companies| ==> companies[i].name != companies[k].name
  }

  predicate HasCompanyNamed(companies: seq<Company>, name: string) {
    exists c :: c in companies && c.name == name
  }

  /** `save` creates a company: a recruiter named one that does not exist yet. */
  predicate CreatesCompany(companies: seq<Company>, d: SignupData) {
    d.userType == Recruiter && Strip(d.companyName) != "" && !HasCompanyNamed(companies, Strip(d.companyName))
  }

  /** The companies table after `save`: a recruiter's stripped company name is looked up and,
      when no company has it, one is created with the new user as its creator. */
  function CompaniesAfterSignup(companies: seq<Company>, nextId: nat, user: User, d: SignupData): (r: seq<Company>)
    ensures CreatesCompany(companies, d) ==> r == companies + [Company(nextId, Strip(d.companyName), user.id)]
    ensures !CreatesCompany(companies, d) ==> r == companies
    ensures UniqueCompanyNames(companies) ==> UniqueCompanyNames(r)
    ensures d.userType == Recruiter && Strip(d.companyName) != "" ==> HasCompanyNamed(r, Strip(d.companyName))
  {
    if CreatesCompany(companies, d) then
      var c := Company(nextId, Strip(d.companyName), user.id);
      assert forall i :: 0 <= i < |companies| ==> companies[i] in companies;
      assert c in companies + [c];
      companies + [c]
    else companies
  }

  /** A job seeker's signup never touches the companies, even with a company name typed in. */
  lemma SeekerCreatesNoCompany(companies: seq<Company>, nextId: nat, user: User, email: string, companyName: string)
    ensures CompaniesAfterSignup(companies, nextId, user, SignupData(email, JobSeeker, companyName)) == companies
  {
  }

  /** An existing company with the given name is left exactly as it was, creator included, and
      no second one appears; so at most one company carries any name after a signup. */
  lemma ExistingCompanyUnchanged(companies: seq<Company>, nextId: nat, user: User, d: SignupData, c: Company)
    requires c in companies && c.name == Strip(d.companyName)
    ensures CompaniesAfterSignup(companies, nextId, user, d) == companies
  {
  }

  /** Whitespace typed around an existing company's name does not make a second company: the
      recruiter's signup finds the stored one. */
  lemma PaddedNameFindsCompany(companies: seq<Company>, nextId: nat, user: User, email: string,
                               c: Company, before: string, after: string)
    requires c in companies && Trimmed(c.name)
    requires forall k :: 0 <= k < |before| ==> IsSpace(before[k])
    requires forall k :: 0 <= k < |after| ==> IsSpace(after[k])
    ensures CompaniesAfterSignup(companies, nextId, user, SignupData(email, Recruiter, before + c.name + after)) == companies
  {
    StripPadded(before, c.name, after);
  }

  /** The user that `save` returns: the form's role stored on the account. */
  function SavedUser(user: User, d: SignupData): (r: User)
    ensures r.userType == d.userType
    ensures r.(userType := user.userType) == user
  {
    user.(userType := d.userType)
  }

  /** The `companies_company` table as signup writes it. */
  class CompanyTable {
    var companies: seq<Company>
    var nextId: nat

    ghost predicate Valid()
      reads this
    {
      UniqueCompanyNames(companies)
    }

    constructor ()
      ensures Valid() && companies == []
    {
      companies, nextId := [], 1;
    }

    /** `CustomSignupForm.save` after a valid submission, for the account `user` that the
        account signup has just created. */
    method Save(user: User, d: SignupData) returns (saved: User)
      requires Valid() && SignupErrors(d) == {}
      modifies this
      ensures Valid()
      ensures saved == SavedUser(user, d)
      ensures companies == CompaniesAfterSignup(old(companies), old(nextId), user, d)
      ensures nextId == if |companies| > |old(companies)| then old(nextId) + 1 else old(nextId)
    {
      saved := SavedUser(user, d);
      var name := Strip(d.companyName);
      if saved.userType == Recruiter && name != "" {
        var found := false;
        for i := 0 to |companies|
          invariant found <==> exists k :: 0 <= k < i && companies[k].name == name
        {
          if companies[i].name == name {
            found := true;
          }
        }
        assert found <==> HasCompanyNamed(companies, name) by {
          if HasCompanyNamed(companies, name) {
            var c :| c in companies && c.name == name;
            var k :| 0 <= k < |companies| && companies[k] == c;
          }
        }
        if !found {
          companies := companies + [Company(nextId, name, user.id)];
          nextId := nextId + 1;
        }
      }
    }
  }
}

=== FILE: text.dfy ===
/** String helpers shared by the model: ASCII case mapping (the model's stand-in for Python's
    Unicode case folding), case-insensitive substring search as used by `icontains`, Python's
    `str.title()`, `str.strip()`, prefixes, code-point ordering, and decimal numerals with the `{:,}`
    thousands separator. */
module Text {

  // ---------------------------------------------------------------- characters

  predicate IsUpper(c: char) { 'A' <= c <= 'Z' }
  predicate IsLower(c: char) { 'a' <= c <= 'z' }
  predicate IsLetter(c: char) { IsUpper(c) || IsLower(c) }
  predicate IsDigit(c: char) { '0' <= c <= '9' }

  function ToLower(c: char): (d: char)
    ensures IsLetter(d) == IsLetter(c)
    ensures !IsUpper(d)
  {
    if IsUpper(c) then (c as int + 32) as char else c
  }

  function ToUpper(c: char): (d: char)
    ensures IsLetter(d) == IsLetter(c)
    ensures !IsLower(d)
  {
    if IsLower(c) then (c as int - 32) as char else c
  }

  /** `s.lower()` restricted to ASCII. */
  function Lower(s: string): (r: string)
    ensures |r| == |s|
    ensures forall i :: 0 <= i < |s| ==> r[i] == ToLower(s[i])
  {
    seq(|s|, i requires 0 <= i < |s| => ToLower(s[i]))
  }

  // ---------------------------------------------------------------- substrings

  /** `n` occurs in `h` at position `i`. */
  predicate OccursAt(n: string, h: string, i: nat) {
    i + |n| <= |h| && h[i..i + |n|] == n
  }

  /** The reference meaning of "`n` is a substring of `h`". */
  ghost predicate Occurs(n: string, h: string) {
    exists i: nat :: OccursAt(n, h, i)
  }

  /** Substring test, scanning `h` from the left. */
  function Contains(h: string, n: string): (r: bool)
    ensures r <==> Occurs(n, h)
    decreases |h|
  {
    if |h| < |n| then
      assert forall i: nat :: !OccursAt(n, h, i);
      false
    else if h[..|n|] == n then
      assert OccursAt(n, h, 0);
      true
    else
      var rest := Contains(h[1..], n);
      ShiftOccurrence(n, h);
      rest
  }

  /** When `n` does not start `h`, it occurs in `h` exactly when it occurs in `h[1..]`. */
  lemma ShiftOccurrence(n: string, h: string)
    requires |n| <= |h| && h[..|n|] != n
    ensures Occurs(n, h) <==> Occurs(n, h[1..])
  {
    if Occurs(n, h) {
      var i: nat :| OccursAt(n, h, i);
      assert i != 0;
      assert h[1..][i - 1..i - 1 + |n|] == h[i..i + |n|];
      assert OccursAt(n, h[1..], i - 1);
    }
    if Occurs(n, h[1..]) {
      var i: nat :| OccursAt(n, h[1..], i);
      assert h[i + 1..i + 1 + |n|] == h[1..][i..i + |n|];
      assert OccursAt(n, h, i + 1);
    }
  }

  /** Django's `icontains` lookup: a case-insensitive substring test. */
  function IContains(h: string, n: string): (r: bool)
    ensures r <==> Occurs(Lower(n), Lower(h))
  {
    Contains(Lower(h), Lower(n))
  }

  /** The empty query is a substring of every value, so an empty `icontains` filter keeps all. */
  lemma EmptyQueryMatchesAll(h: string)
    ensures IContains(h, "")
  {
    assert OccursAt(Lower(""), Lower(h), 0);
  }

  /** `s.startswith(p)`. */
  predicate StartsWith(s: string, p: string) {
    |p| <= |s| && s[..|p|] == p
  }

  // ---------------------------------------------------------------- surrounding whitespace

  /** `str.isspace()` on ASCII: the space, tab, line feed, vertical tab, form feed, carriage
      return and the four separator controls 0x1C-0x1F. */
  predicate IsSpace(c: char) {
    c == ' ' || 9 <= c as int <= 13 || 28 <= c as int <= 31
  }

  /** The number of whitespace characters `s` starts with. */
  function LeadingSpaces(s: string): (n: nat)
    ensures n <= |s|
    ensures forall k :: 0 <= k < n ==> IsSpace(s[k])
    ensures n < |s| ==> !IsSpace(s[n])
  {
    if s == [] || !IsSpace(s[0]) then 0 else 1 + LeadingSpaces(s[1..])
  }

  /** The number of whitespace characters `s` ends with. */
  function TrailingSpaces(s: string): (n: nat)
    ensures n <= |s|
    ensures forall k :: |s| - n <= k < |s| ==> IsSpace(s[k])
    ensures n < |s| ==> !IsSpace(s[|s| - n - 1])
  {
    if s == [] || !IsSpace(s[|s| - 1]) then 0 else 1 + TrailingSpaces(s[..|s| - 1])
  }

  /** Text with no whitespace at either end. */
  predicate Trimmed(s: string) {
    s == [] || (!IsSpace(s[0]) && !IsSpace(s[|s| - 1]))
  }

  /** `s.strip()`, as a form's CharField applies it before validating: whitespace text becomes
      empty, and otherwise neither end is whitespace. */
  function Strip(s: string): (r: string)
    ensures |r| <= |s| && Trimmed(r)
    ensures r == [] <==> forall k :: 0 <= k < |s| ==> IsSpace(s[k])
  {
    var t := s[LeadingSpaces(s)..];
    var r := t[..|t| - TrailingSpaces(t)];
    assert r != [] ==> r[0] == s[LeadingSpaces(s)];
    r
  }

  /** Stripping removes exactly the padding: text that is already trimmed comes back from
      between any two runs of whitespace. */
  lemma StripPadded(a: string, s: string, b: string)
    requires forall k :: 0 <= k < |a| ==> IsSpace(a[k])
    requires forall k :: 0 <= k < |b| ==> IsSpace(b[k])
    requires Trimmed(s)
    ensures Strip(a + s + b) == s
  {
    var x := a + s + b;
    if s == [] {
      assert forall k :: 0 <= k < |x| ==> IsSpace(x[k]) by {
        forall k | 0 <= k < |x| ensures IsSpace(x[k]) {
          if k < |a| { assert x[k] == a[k]; } else { assert x[k] == b[k - |a|]; }
        }
      }
    } else {
      var n := LeadingSpaces(x);
      assert x[|a|] == s[0];
      assert forall k :: 0 <= k < |a| ==> x[k] == a[k];
      assert n == |a|;
      var t := x[n..];
      assert t == s + b;
      var m := TrailingSpaces(t);
      assert t[|s| - 1] == s[|s| - 1];
      assert forall k :: |s| <= k < |t| ==> t[k] == b[k - |s|];
      assert m == |b|;
      assert t[..|t| - m] == s;
    }
  }

  // ---------------------------------------------------------------- title case

  /** `str.title()` on ASCII: a letter is upper-cased when the character before it is not a
      letter, and lower-cased otherwise; other characters are kept. `prevCased` says whether the
      character before `s` was a letter. */
  function TitleFrom(s: string, prevCased: bool): (r: string)
    ensures |r| == |s|
  {
    if s == [] then []
    else
      var c := if !IsLetter(s[0]) then s[0] else if prevCased then ToLower(s[0]) else ToUpper(s[0]);
      [c] + TitleFrom(s[1..], IsLetter(s[0]))
  }

  /** The character `str.title()` puts at position `i` of `s`. */
  function TitleCharAt(s: string, i: nat): char
    requires i < |s|
  {
    if !IsLetter(s[i]) then s[i]
    else if i > 0 && IsLetter(s[i - 1]) then ToLower(s[i])
    else ToUpper(s[i])
  }

  function TitleCase(s: string): (r: string)
    ensures |r| == |s|
  {
    TitleFrom(s, false)
  }

  lemma {:induction false} TitleFromAt(s: string, prevCased: bool, i: nat)
    requires i < |s|
    ensures TitleFrom(s, prevCased)[i] ==
      if !IsLetter(s[i]) then s[i]
      else if (if i == 0 then prevCased else IsLetter(s[i - 1])) then ToLower(s[i])
      else ToUpper(s[i])
  {
    if i > 0 {
      TitleFromAt(s[1..], IsLetter(s[0]), i - 1);
      assert s[1..][i - 1] == s[i];
      if i > 1 { assert s[1..][i - 2] == s[i - 1]; }
    }
  }

  /** Each character of the title-cased string depends only on the character and its left
      neighbour in the input, as `str.title()` promises. */
  lemma TitleCaseAt(s: string)
    ensures forall i: nat :: i < |s| ==> TitleCase(s)[i] == TitleCharAt(s, i)
  {
    forall i: nat | i < |s| ensures TitleCase(s)[i] == TitleCharAt(s, i) {
      TitleFromAt(s, false, i);
    }
  }

  // ---------------------------------------------------------------- lexicographic order

  /** Code-point lexicographic order on strings (the order `order_by('name')` is modelled by). */
  predicate LexLe(a: string, b: string) {
    a == [] || (b != [] && (a[0] < b[0] || (a[0] == b[0] && LexLe(a[1..], b[1..]))))
  }

  lemma {:induction false} LexLeTotal(a: string, b: string)
    ensures LexLe(a, b) || LexLe(b, a)
  {
    if a != [] && b != [] && a[0] == b[0] {
      LexLeTotal(a[1..], b[1..]);
    }
  }

  lemma {:induction false} LexLeTransitive(a: string, b: string, c: string)
    requires LexLe(a, b) && LexLe(b, c)
    ensures LexLe(a, c)
  {
    if a != [] && b != [] && c != [] && a[0] == b[0] == c[0] {
      LexLeTransitive(a[1..], b[1..], c[1..]);
    }
  }

  lemma {:induction false} LexLeAntisymmetric(a: string, b: string)
    requires LexLe(a, b) && LexLe(b, a)
    ensures a == b
  {
    if a != [] && b != [] {
      LexLeAntisymmetric(a[1..], b[1..]);
      assert a == [a[0]] + a[1..] && b == [b[0]] + b[1..];
    }
  }

  // ---------------------------------------------------------------- decimal numerals

  function DigitChar(d: nat): (c: char)
    requires d < 10
    ensures IsDigit(c)
  {
    ('0' as int + d) as char
  }

  function DigitValue(c: char): (d: nat)
    requires IsDigit(c)
    ensures d < 10 && DigitChar(d) == c
  {
    c as int - '0' as int
  }

  predicate AllDigits(s: string) {
    forall i :: 0 <= i < |s| ==> IsDigit(s[i])
  }

  /** `str(n)`: the decimal numeral of `n`, most significant digit first. */
  function Digits(n: nat): (r: string)
    ensures |r| >= 1 && AllDigits(r)
  {
    if n < 10 then [DigitChar(n)] else Digits(n / 10) + [DigitChar(n % 10)]
  }

  /** `int(s)` for a numeral made only of digits. */
  function ParseDecimal(s: string): nat
    requires AllDigits(s)
  {
    if s == [] then 0 else ParseDecimal(s[..|s| - 1]) * 10 + DigitValue(s[|s| - 1])
  }

  lemma {:induction false} DigitsRoundTrip(n: nat)
    ensures ParseDecimal(Digits(n)) == n
  {
    var r := Digits(n);
    if n >= 10 {
      DigitsRoundTrip(n / 10);
      assert r[..|r| - 1] == Digits(n / 10);
      assert DigitValue(DigitChar(n % 10)) == n % 10;
    } else {
      assert r[..0] == [];
    }
  }

  /** A numeral has no leading zero, except the numeral of zero itself. */
  lemma {:induction false} DigitsLeadingDigit(n: nat)
    ensures Digits(n)[0] == '0' <==> n == 0
  {
    if n >= 10 {
      DigitsLeadingDigit(n / 10);
    }
  }

  lemma DigitsBelowThousand(n: nat)
    requires n < 1000
    ensures |Digits(n)| <= 3
  {
    if n >= 10 {
      var m := n / 10;
      assert m < 100 && |Digits(n)| == |Digits(m)| + 1;
      if m >= 10 {
        assert m / 10 < 10 && |Digits(m)| == |Digits(m / 10)| + 1;
      }
    }
  }

  /** The three digits of `n` with leading zeros, as `{:,}` prints every group but the first. */
  function Pad3(n: nat): (r: string)
    requires n < 1000
    ensures |r| == 3 && AllDigits(r)
  {
    [DigitChar(n / 100), DigitChar(n / 10 % 10), DigitChar(n % 10)]
  }

  /** `f"{n:,}"`: the numeral of `n` with a comma between every group of three digits,
      counted from the right. */
  function Grouped(n: nat): (r: string)
    ensures |r| >= 1
  {
    if n < 1000 then Digits(n) else Grouped(n / 1000) + [','] + Pad3(n % 1000)
  }

  /** The text with every comma deleted. */
  function StripCommas(s: string): (r: string)
    ensures |r| <= |s|
  {
    if s == [] then [] else (if s[0] == ',' then [] else [s[0]]) + StripCommas(s[1..])
  }

  lemma {:induction false} StripCommasAppend(a: string, b: string)
    ensures StripCommas(a + b) == StripCommas(a) + StripCommas(b)
  {
    if a != [] {
      assert (a + b)[1..] == a[1..] + b;
      StripCommasAppend(a[1..], b);
    } else {
      assert a + b == b;
    }
  }

  lemma {:induction false} StripCommasNoComma(s: string)
    requires AllDigits(s)
    ensures StripCommas(s) == s
  {
    if s != [] {
      StripCommasNoComma(s[1..]);
      assert s == [s[0]] + s[1..];
    }
  }

  /** The numeral of a number of at least 1000 is the numeral of its thousands followed by the
      last three digits. */
  lemma DigitsSplitThousands(n: nat)
    requires n >= 1000
    ensures Digits(n) == Digits(n / 1000) + Pad3(n % 1000)
  {
    var q, m := n / 1000, n % 1000;
    var a, b, c := m / 100, m / 10 % 10, m % 10;
    assert m == 100 * a + 10 * b + c;
    assert n == 1000 * q + 100 * a + 10 * b + c;
    assert n / 10 == 100 * q + 10 * a + b && n % 10 == c;
    assert n / 10 / 10 == 10 * q + a && n / 10 % 10 == b;
    assert n / 10 / 10 / 10 == q && n / 10 / 10 % 10 == a;
    calc {
      Digits(n);
      Digits(n / 10) + [DigitChar(c)];
      Digits(n / 10 / 10) + [DigitChar(b)] + [DigitChar(c)];
      Digits(n / 10 / 10 / 10) + [DigitChar(a)] + [DigitChar(b)] + [DigitChar(c)];
      Digits(q) + Pad3(m);
    }
  }

  /** Deleting the separators from `f"{n:,}"` gives back `str(n)`. */
  lemma {:induction false} GroupedStripsToDigits(n: nat)
    ensures StripCommas(Grouped(n)) == Digits(n)
  {
    if n < 1000 {
      StripCommasNoComma(Digits(n));
    } else {
      GroupedStripsToDigits(n / 1000);
      StripCommasAppend(Grouped(n / 1000) + [','], Pad3(n % 1000));
      StripCommasAppend(Grouped(n / 1000), [',']);
      StripCommasNoComma(Pad3(n % 1000));
      assert StripCommas([',']) == [];
      DigitsSplitThousands(n);
    }
  }

  /** The separator round trip: reading the grouped numeral back, commas removed, gives `n`. */
  lemma GroupedRoundTrip(n: nat)
    ensures AllDigits(StripCommas(Grouped(n)))
    ensures ParseDecimal(StripCommas(Grouped(n))) == n
  {
    GroupedStripsToDigits(n);
    DigitsRoundTrip(n);
  }

  /** The layout of a `{:,}` numeral: every character is a digit or a comma, and a comma
      stands exactly at the positions a multiple of four characters from the right end. */
  predicate CommaLayout(s: string) {
    forall i :: 0 <= i < |s| ==> (IsDigit(s[i]) || s[i] == ',') && (s[i] == ',' <==> (|s| - i) % 4 == 0)
  }

  /** Appending a separator and a group of three digits keeps the layout. */
  lemma CommaLayoutExtend(g: string, p: string)
    requires CommaLayout(g) && |p| == 3 && AllDigits(p)
    ensures CommaLayout(g + [','] + p)
  {
    var r := g + [','] + p;
    forall i | 0 <= i < |r|
      ensures (IsDigit(r[i]) || r[i] == ',') && (r[i] == ',' <==> (|r| - i) % 4 == 0)
    {
      if i < |g| {
        assert r[i] == g[i];
        assert |r| - i == (|g| - i) + 4;
      } else if i > |g| {
        assert r[i] == p[i - |g| - 1];
      }
    }
  }

  /** Layout of `f"{n:,}"`: digits and commas, one comma before every full group of three
      digits counted from the right, never a comma first, and no leading zero except in the
      numeral of zero. */
  lemma {:induction false} GroupedLayout(n: nat)
    ensures |Grouped(n)| % 4 != 0
    ensures CommaLayout(Grouped(n))
    ensures Grouped(n)[0] == '0' <==> n == 0
  {
    if n < 1000 {
      DigitsBelowThousand(n);
      DigitsLeadingDigit(n);
    } else {
      GroupedLayout(n / 1000);
      CommaLayoutExtend(Grouped(n / 1000), Pad3(n % 1000));
      assert Grouped(n)[0] == Grouped(n / 1000)[0];
    }
  }

  /** A digit string with a non-zero first digit has a positive value. */
  lemma {:induction false} ParseLeadingNonZero(s: string)
    requires AllDigits(s) && s != [] && s[0] != '0'
    ensures ParseDecimal(s) >= 1
  {
    if |s| > 1 {
      ParseLeadingNonZero(s[..|s| - 1]);
    }
  }

  /** A digit string without a leading zero (other than "0" itself) is the numeral of its value. */
  lemma {:induction false} DigitsUnique(s: string)
    requires AllDigits(s) && s != [] && (s[0] == '0' ==> |s| == 1)
    ensures s == Digits(ParseDecimal(s))
  {
    var n := ParseDecimal(s);
    if |s| == 1 {
      assert s[..0] == [];
    } else {
      var t := s[..|s| - 1];
      assert t[0] == s[0];
      DigitsUnique(t);
      ParseLeadingNonZero(t);
      var d := DigitValue(s[|s| - 1]);
      assert n == ParseDecimal(t) * 10 + d;
      assert n / 10 == ParseDecimal(t) && n % 10 == d;
      assert s == t + [s[|s| - 1]];
    }
  }

  /** Reading one more digit multiplies by ten and adds it. */
  lemma ParseSnoc(s: string, c: char)
    requires AllDigits(s) && IsDigit(c)
    ensures AllDigits(s + [c])
    ensures ParseDecimal(s + [c]) == ParseDecimal(s) * 10 + DigitValue(c)
  {
    assert (s + [c])[..|s|] == s;
  }

  /** Three digits, padded, are the three-digit numeral of their value. */
  lemma Pad3OfDigits(a: nat, b: nat, c: nat)
    requires a < 10 && b < 10 && c < 10
    ensures Pad3(100 * a + 10 * b + c) == [DigitChar(a), DigitChar(b), DigitChar(c)]
  {
    var q := 100 * a + 10 * b + c;
    assert q / 10 == 10 * a + b && q % 10 == c;
    assert q / 100 == a;
    assert q / 10 % 10 == b;
  }

  /** Three digits read as a number are below 1000 and padded back to themselves. */
  lemma Pad3Unique(p: string)
    requires |p| == 3 && AllDigits(p)
    ensures ParseDecimal(p) < 1000 && Pad3(ParseDecimal(p)) == p
  {
    var a, b, c := DigitValue(p[0]), DigitValue(p[1]), DigitValue(p[2]);
    ParseSnoc([], p[0]);
    ParseSnoc([p[0]], p[1]);
    ParseSnoc([p[0], p[1]], p[2]);
    assert [] + [p[0]] == [p[0]] && [p[0]] + [p[1]] == [p[0], p[1]] && [p[0], p[1]] + [p[2]] == p;
    assert ParseDecimal(p) == 100 * a + 10 * b + c;
    Pad3OfDigits(a, b, c);
  }

  /** Reading a numeral followed by three more digits. */
  lemma ParseAppendThree(g: string, p: string)
    requires AllDigits(g) && |p| == 3 && AllDigits(p)
    ensures AllDigits(g + p)
    ensures ParseDecimal(g + p) == ParseDecimal(g) * 1000 + ParseDecimal(p)
  {
    var a, b, c := DigitValue(p[0]), DigitValue(p[1]), DigitValue(p[2]);
    ParseSnoc(g, p[0]);
    ParseSnoc(g + [p[0]], p[1]);
    ParseSnoc(g + [p[0]] + [p[1]], p[2]);
    assert g + [p[0]] + [p[1]] + [p[2]] == g + p;
    ParseSnoc([], p[0]);
    ParseSnoc([p[0]], p[1]);
    ParseSnoc([p[0], p[1]], p[2]);
    assert [] + [p[0]] == [p[0]] && [p[0]] + [p[1]] == [p[0], p[1]] && [p[0], p[1]] + [p[2]] == p;
    var x := ParseDecimal(g);
    assert ParseDecimal(g + p) == ((x * 10 + a) * 10 + b) * 10 + c;
    assert ParseDecimal(p) == (a * 10 + b) * 10 + c;
  }

  /** A laid-out string of at most three characters has no comma. */
  lemma CommaLayoutShort(s: string)
    requires CommaLayout(s) && |s| <= 3
    ensures AllDigits(s)
  {
    forall i | 0 <= i < |s| ensures IsDigit(s[i]) {
      assert (|s| - i) % 4 != 0;
    }
  }

  /** A laid-out string longer than four characters is a laid-out head, a comma and three
      digits. */
  lemma CommaLayoutSplit(s: string)
    requires CommaLayout(s) && |s| > 4
    ensures s == s[..|s| - 4] + [','] + s[|s| - 3..]
    ensures CommaLayout(s[..|s| - 4]) && AllDigits(s[|s| - 3..])
  {
    var g, p := s[..|s| - 4], s[|s| - 3..];
    assert s[|s| - 4] == ',';
    assert s == g + [','] + p;
    forall i | 0 <= i < |g|
      ensures (IsDigit(g[i]) || g[i] == ',') && (g[i] == ',' <==> (|g| - i) % 4 == 0)
    {
      assert g[i] == s[i] && |s| - i == (|g| - i) + 4;
    }
    forall i | 0 <= i < 3 ensures IsDigit(p[i]) {
      assert p[i] == s[|s| - 3 + i] && (|s| - (|s| - 3 + i)) % 4 != 0;
    }
  }

  /** `{:,}` is the only layout of its kind: a string of digits and commas laid out as
      CommaLayout says, with a length that is not a multiple of four and no leading zero unless
      it is "0", is the grouped numeral of the number its digits spell. Together with
      GroupedLayout and GroupedRoundTrip this determines `Grouped` completely. */
  lemma {:induction false} GroupedUnique(s: string)
    requires s != [] && CommaLayout(s) && |s| % 4 != 0 && (s[0] == '0' ==> |s| == 1)
    ensures AllDigits(StripCommas(s))
    ensures s == Grouped(ParseDecimal(StripCommas(s)))
  {
    if |s| <= 3 {
      CommaLayoutShort(s);
      StripCommasNoComma(s);
      DigitsUnique(s);
      var n := ParseDecimal(s);
      if n >= 1000 {
        DigitsSplitThousands(n);
        assert false;
      }
    } else {
      CommaLayoutSplit(s);
      var g, p := s[..|s| - 4], s[|s| - 3..];
      assert g[0] == s[0];
      GroupedUnique(g);
      var m := ParseDecimal(StripCommas(g));
      GroupedLayout(m);
      StripCommasAppend(g + [','], p);
      StripCommasAppend(g, [',']);
      StripCommasNoComma(p);
      assert StripCommas([',']) == [];
      assert StripCommas(s) == StripCommas(g) + p;
      ParseAppendThree(StripCommas(g), p);
      Pad3Unique(p);
      var n := ParseDecimal(StripCommas(s));
      assert n == m * 1000 + ParseDecimal(p);
      assert n / 1000 == m && n % 1000 == ParseDecimal(p);
    }
  }

  /** The grouped numeral ends with a digit (never with a separator or anything else). */
  lemma GroupedEndsWithDigit(n: nat)
    ensures IsDigit(Grouped(n)[|Grouped(n)| - 1])
  {
    GroupedLayout(n);
  }
}

=== FILE: user_views.dfy ===
/** The profile-completion pages (users/views.py): where a signed-in user is sent to complete a
    profile, the get-or-create of the profile row, and the completion flag raised on save. The
    seeker and recruiter pages share one implementation and differ only in template, so one
    class models both. */
module UserViews {
  import opened Wrappers
  import opened Text
  import opened Users
  import opened Profiles

  datatype Route = ToLogin | ToHome | ToSeekerCompletion | ToRecruiterCompletion

  /** `profile_completion_required`, behind `login_required`. */
  function CompletionRoute(v: Visitor): (r: Route)
    ensures r == ToLogin <==> v.Anonymous?
    ensures r == ToHome <==> v.Member? && v.user.profileCompleted
    ensures r == ToSeekerCompletion <==> v.Member? && !v.user.profileCompleted && v.user.userType == JobSeeker
    ensures r == ToRecruiterCompletion <==> v.Member? && !v.user.profileCompleted && v.user.userType != JobSeeker
  {
    match v
    case Anonymous => ToLogin
    case Member(u) =>
      if u.profileCompleted then ToHome
      else if u.userType == JobSeeker then ToSeekerCompletion
      else ToRecruiterCompletion
  }

  /** `Profile.objects.get_or_create(user=...)`: the existing profile, or a new blank one
      appended to the rows. */
  function GetOrCreateProfile(profiles: seq<Profile>, user: nat): (r: (Profile, seq<Profile>))
    ensures r.0.user == user
    ensures ProfileOf(profiles, user).Some? ==> r.0 == ProfileOf(profiles, user).value && r.1 == profiles
    ensures ProfileOf(profiles, user).None? ==> r.0 == NewProfile(user) && r.1 == profiles + [r.0]
    ensures ProfileOf(r.1, user) == Some(r.0)
    ensures OneProfilePerUser(profiles) ==> OneProfilePerUser(r.1)
  {
    match ProfileOf(profiles, user)
    case Some(p) => (p, profiles)
    case None =>
      var p := NewProfile(user);
      assert forall i :: 0 <= i < |profiles| ==> profiles[i] in profiles;
      ProfileOfAppend(profiles, p);
      (p, profiles + [p])
  }

  lemma {:induction false} ProfileOfAppend(profiles: seq<Profile>, p: Profile)
    requires ProfileOf(profiles, p.user).None?
    ensures ProfileOf(profiles + [p], p.user) == Some(p)
  {
    if profiles != [] {
      assert (profiles + [p])[1..] == profiles[1..] + [p];
      ProfileOfAppend(profiles[1..], p);
    }
  }

  /** A second `get_or_create` for the same user finds the row the first one made. */
  lemma GetOrCreateIsStable(profiles: seq<Profile>, user: nat)
    ensures GetOrCreateProfile(GetOrCreateProfile(profiles, user).1, user) == GetOrCreateProfile(profiles, user)
  {
  }

  /** `form.save()` on the user's profile: the user's row takes the submitted values. */
  function SaveProfile(profiles: seq<Profile>, p: Profile): (r: seq<Profile>)
    ensures |r| == |profiles|
    ensures forall i :: 0 <= i < |profiles| ==> r[i] == if profiles[i].user == p.user then p else profiles[i]
  {
    seq(|profiles|, i requires 0 <= i < |profiles| => if profiles[i].user == p.user then p else profiles[i])
  }

  /** Saving keeps one profile per user and the saved profile is what the user now has. */
  lemma SaveProfileEffect(profiles: seq<Profile>, p: Profile)
    requires ProfileOf(profiles, p.user).Some?
    ensures OneProfilePerUser(profiles) ==> OneProfilePerUser(SaveProfile(profiles, p))
    ensures ProfileOf(SaveProfile(profiles, p), p.user) == Some(p)
  {
    var r := SaveProfile(profiles, p);
    var q :| q in profiles && q.user == p.user;
    var i :| 0 <= i < |profiles| && profiles[i] == q;
    assert r[i] == p;
    SavedIsFirst(profiles, p);
  }

  lemma {:induction false} SavedIsFirst(profiles: seq<Profile>, p: Profile)
    requires exists q :: q in profiles && q.user == p.user
    ensures ProfileOf(SaveProfile(profiles, p), p.user) == Some(p)
  {
    var r := SaveProfile(profiles, p);
    if profiles[0].user != p.user {
      assert profiles == [profiles[0]] + profiles[1..];
      assert SaveProfile(profiles[1..], p) == r[1..];
      SavedIsFirst(profiles[1..], p);
    }
  }

  /** The users table after `form_valid`: the user's flag is raised when the saved profile is
      complete, and left as it was otherwise. */
  function RaiseCompleted(users: seq<User>, user: nat, complete: bool): (r: seq<User>)
    ensures |r| == |users|
    ensures forall i :: 0 <= i < |users| ==>
              r[i] == if users[i].id == user && complete then users[i].(profileCompleted := true) else users[i]
  {
    seq(|users|, i requires 0 <= i < |users| =>
      if users[i].id == user && complete then users[i].(profileCompleted := true) else users[i])
  }

  /** The flag only ever rises: after the update a user's flag is the old flag or, for the user
      who saved, the completeness of the saved profile. */
  lemma CompletionFlagOnlyRises(users: seq<User>, user: nat, complete: bool, i: nat)
    requires i < |users|
    ensures RaiseCompleted(users, user, complete)[i].profileCompleted
            <==> users[i].profileCompleted || (users[i].id == user && complete)
    ensures users[i].profileCompleted ==> RaiseCompleted(users, user, complete)[i].profileCompleted
  {
  }

  /** The eight values the profile-completion form edits, as submitted; every other column of
      the profile keeps its stored value. */
  datatype CompletionData = CompletionData(
    headline: string,
    bio: string,
    location: string,
    skills: set<nat>,
    currentPosition: string,
    yearsExperience: Option<nat>,
    education: string,
    openToWork: bool)

  /** The `max_length` of the three bounded text columns. */
  const HeadlineMaxLength: nat := 255
  const LocationMaxLength: nat := 100
  const CurrentPositionMaxLength: nat := 200

  /** The form validates: `skills` is required and each chosen skill must exist, and each
      bounded text field is within its length once stripped; the other fields allow blanks. */
  predicate CompletionValid(d: CompletionData, knownSkills: set<nat>) {
    && d.skills != {} && d.skills <= knownSkills
    && |Strip(d.headline)| <= HeadlineMaxLength
    && |Strip(d.location)| <= LocationMaxLength
    && |Strip(d.currentPosition)| <= CurrentPositionMaxLength
  }

  /** `form.instance` after binding: the stored profile with the form's eight fields replaced,
      text fields stripped of surrounding whitespace. */
  function ApplyCompletion(p: Profile, d: CompletionData): (r: Profile)
    ensures r.headline == Strip(d.headline) && r.bio == Strip(d.bio) && r.location == Strip(d.location)
    ensures r.currentPosition == Strip(d.currentPosition) && r.education == Strip(d.education)
    ensures r.skills == d.skills && r.yearsExperience == d.yearsExperience && r.openToWork == d.openToWork
    ensures r.(headline := p.headline, bio := p.bio, location := p.location, skills := p.skills,
               currentPosition := p.currentPosition, yearsExperience := p.yearsExperience,
               education := p.education, openToWork := p.openToWork) == p
  {
    p.(headline := Strip(d.headline), bio := Strip(d.bio), location := Strip(d.location), skills := d.skills,
       currentPosition := Strip(d.currentPosition), yearsExperience := d.yearsExperience,
       education := Strip(d.education), openToWork := d.openToWork)
  }

  /** The submission fills in a field: something other than whitespace was typed. */
  predicate FilledIn(s: string) {
    exists k :: 0 <= k < |s| && !IsSpace(s[k])
  }

  /** Whether a completion marks the profile complete depends only on the submitted form: a
      valid form completes it exactly when headline, bio and location are all filled in. */
  lemma CompletionDecidedByForm(p: Profile, q: Profile, d: CompletionData, knownSkills: set<nat>)
    ensures IsComplete(ApplyCompletion(p, d)) == IsComplete(ApplyCompletion(q, d))
    ensures CompletionValid(d, knownSkills) ==>
              (IsComplete(ApplyCompletion(p, d)) <==> FilledIn(d.headline) && FilledIn(d.bio) && FilledIn(d.location))
  {
    CompletenessIgnoresOtherFields(ApplyCompletion(p, d), ApplyCompletion(q, d));
  }

  /** The outcome of a POST to a completion page. */
  datatype CompletionOutcome = FormRejected | Saved(completed: bool)

  predicate UniqueUserIds(users: seq<User>) {
    forall i, k :: 0 <= i < k < |users| ==> users[i].id != users[k].id
  }

  /** The users and profiles tables that the completion pages read and write. */
  class Accounts {
    var users: seq<User>
    var profiles: seq<Profile>

    ghost predicate Valid()
      reads this
    {
      UniqueUserIds(users) && OneProfilePerUser(profiles)
    }

    constructor (users: seq<User>)
      requires UniqueUserIds(users)
      ensures Valid() && this.users == users && profiles == []
    {
      this.users, profiles := users, [];
    }

    /** `ProfileCompletionView.get_object`. */
    method GetObject(user: nat) returns (p: Profile)
      requires Valid()
      modifies this
      ensures Valid()
      ensures (p, profiles) == GetOrCreateProfile(old(profiles), user) && users == old(users)
    {
      var r := GetOrCreateProfile(profiles, user);
      p := r.0;
      profiles := r.1;
    }

    /** `ProfileCompletionView.form_valid`, reached only with a valid form: save the bound
        profile, then raise the user's flag when it is complete. */
    method FormValid(user: nat, d: CompletionData, knownSkills: set<nat>) returns (completed: bool)
      requires Valid() && ProfileOf(profiles, user).Some? && CompletionValid(d, knownSkills)
      modifies this
      ensures Valid()
      ensures profiles == SaveProfile(old(profiles), ApplyCompletion(ProfileOf(old(profiles), user).value, d))
      ensures users == RaiseCompleted(old(users), user, completed)
      ensures completed <==> FilledIn(d.headline) && FilledIn(d.bio) && FilledIn(d.location)
    {
      var saved := ApplyCompletion(ProfileOf(profiles, user).value, d);
      SaveProfileEffect(profiles, saved);
      profiles := SaveProfile(profiles, saved);
      completed := IsComplete(saved);
      users := RaiseCompleted(users, user, completed);
    }

    /** A POST to either completion page: `get_object` runs first; an invalid form saves nothing,
        a valid one goes on to `form_valid`. */
    method SubmitCompletion(user: nat, d: CompletionData, knownSkills: set<nat>) returns (outcome: CompletionOutcome)
      requires Valid()
      modifies this
      ensures Valid()
      ensures outcome.FormRejected? <==> !CompletionValid(d, knownSkills)
      ensures outcome.FormRejected? ==> profiles == GetOrCreateProfile(old(profiles), user).1 && users == old(users)
      ensures outcome.Saved? ==>
                profiles == SaveProfile(GetOrCreateProfile(old(profiles), user).1,
                                        ApplyCompletion(GetOrCreateProfile(old(profiles), user).0, d))
      ensures outcome.Saved? ==>
                ProfileOf(profiles, user) == Some(ApplyCompletion(GetOrCreateProfile(old(profiles), user).0, d))
      ensures outcome.Saved? ==> users == RaiseCompleted(old(users), user, outcome.completed)
      ensures outcome.Saved? ==> (outcome.completed <==> FilledIn(d.headline) && FilledIn(d.bio) && FilledIn(d.location))
    {
      var p := GetObject(user);
      if !CompletionValid(d, knownSkills) {
        return FormRejected;
      }
      SaveProfileEffect(profiles, ApplyCompletion(p, d));
      var completed := FormValid(user, d, knownSkills);
      outcome := Saved(completed);
    }
  }
}

=== FILE: users.dfy ===
/** The user record (users/models.py): the role tag, its default and validation, and the
    string form. A request's user is either anonymous or a member. */
module Users {
  import opened Wrappers
  import opened Choices

  const UserTypeChoices: seq<Choice> := [("job_seeker", "Job Seeker"), ("recruiter", "Recruiter")]

  const JobSeeker: string := "job_seeker"
  const Recruiter: string := "recruiter"

  datatype User = User(
    id: nat,
    username: string,
    userType: string,
    emailVerified: bool,
    profileCompleted: bool)

  /** `request.user`: an anonymous visitor or an authenticated member. */
  datatype Visitor = Anonymous | Member(user: User)

  /** The gate of `JobSeekerRequiredMixin.test_func`: authenticated and a job seeker. */
  predicate IsJobSeeker(v: Visitor) {
    v.Member? && v.user.userType == JobSeeker
  }

  /** A user as first saved: a job seeker, with email unverified and profile incomplete. */
  function NewUser(id: nat, username: string): (u: User)
    ensures u.userType == JobSeeker && !u.emailVerified && !u.profileCompleted
    ensures u.id == id && u.username == username
  {
    User(id, username, JobSeeker, false, false)
  }

  /** The default role is one of the two choices. */
  lemma DefaultUserTypeIsChoice()
    ensures HasCode(UserTypeChoices, NewUser(0, "").userType)
  {
    assert UserTypeChoices[0].0 == JobSeeker;
  }

  datatype UserError = InvalidUserType  // "Invalid user type selected."

  /** `clean`: a role outside the two choices is rejected; otherwise the user is unchanged. */
  function CleanUser(u: User): (r: Result<User, UserError>)
    ensures r.Err? <==> u.userType != JobSeeker && u.userType != Recruiter
    ensures r.Ok? ==> r.value == u
  {
    UserTypeCodes(u.userType);
    if HasCode(UserTypeChoices, u.userType) then Ok(u) else Err(InvalidUserType)
  }

  /** The role table knows exactly the two roles. */
  lemma UserTypeCodes(code: string)
    ensures HasCode(UserTypeChoices, code) <==> code == JobSeeker || code == Recruiter
  {
    if HasCode(UserTypeChoices, code) {
      var i :| 0 <= i < |UserTypeChoices| && UserTypeChoices[i].0 == code;
      assert i == 0 || i == 1;
    }
    assert UserTypeChoices[0].0 == JobSeeker && UserTypeChoices[1].0 == Recruiter;
  }

  /** `get_user_type_display`, Django's built-in lookup. */
  function UserTypeDisplay(u: User): (r: string)
    ensures u.userType == JobSeeker ==> r == "Job Seeker"
    ensures u.userType == Recruiter ==> r == "Recruiter"
    ensures u.userType != JobSeeker && u.userType != Recruiter ==> r == u.userType
  {
    UserTypeCodes(u.userType);
    BuiltinDisplay(UserTypeChoices, u.userType)
  }

  /** `__str__`: "<username> (<role label>)". */
  function UserStr(u: User): (r: string)
    ensures |r| == |u.username| + |UserTypeDisplay(u)| + 3
    ensures r[..|u.username|] == u.username
    ensures r[|u.username|..|u.username| + 2] == " ("
    ensures r[|u.username| + 2..|r| - 1] == UserTypeDisplay(u)
    ensures r[|r| - 1] == ')'
  {
    u.username + " (" + UserTypeDisplay(u) + ")"
  }
}

=== FILE: wrappers.dfy ===
/** Option and Result values standing in for Python's None and for raised validation errors. */
module Wrappers {

  datatype Option<+T> = None | Some(value: T)

  /** The outcome of a clean/validate step: the cleaned value, or the error it raises. */
  datatype Result<+T, +E> = Ok(value: T) | Err(error: E)

  /** Python truthiness of a nullable integer column: None and 0 are both false. */
  predicate Truthy(n: Option<nat>) {
    n.Some? && n.value != 0
  }
}
